=== FILE: README.md ===
# Vacancy statistics by year — a Dafny model

The modelled program reads CSV exports of job vacancies and reports, year by
year, the average salary in roubles and the number of vacancies. It reports
them for all vacancies, and again for those whose name contains a chosen
profession. It works in two stages:

* The **year splitter** (`Daniil-Obukhov-at-36-3.2.1.py`) keeps the valid rows
  of one big file and cleans every value. It cuts the rows into runs with the
  same year key, which is the first four characters of the last column, and
  writes each run to a file named after its year.
* The **statistics** (`Daniil-Obukhov-at-36-3.2.3.py`) process every file of a
  directory in a process pool. For each file it:
  * turns the valid rows into `Vacancy` objects;
  * groups them by year into `YearSalary` buckets that carry a salary sum and
    a count;
  * fills the profession's missing years with zero buckets;
  * converts the buckets into dicts keyed by the year as an integer.

  The per-file dicts are then merged with `dict.update`, in submission order.

The Dafny project models all of this as pure functions over immutable data:

| file | module | models |
|---|---|---|
| `results.dfy` | `Results` | `Option`, and `Result` with Python's exceptions `KeyError`, `ValueError` and `IndexError` |
| `seqs.dfy` | `Seqs` | distinctness, first and last index, duplicate removal that keeps first appearances |
| `ordered_dict.dfy` | `OrderedDict` | an insertion-ordered Python dict as an association list, with `d[k] = v`, `update` and `dict(pairs)` |
| `text.dfy` | `Text` | field cleaning: `re.sub("<.*?>", "", s)`, `.replace("\n", "; ")`, `" ".join(s.split())`, and `s[:n]` |
| `numbers.dfy` | `Numbers` | `int()` on a float (truncation toward zero) and `int()` on a string |
| `salary.dfy` | `Salaries` | `Salary`, its truncated midpoint and the currency table |
| `dataset.dfy` | `DataSet` | row validation and cleaning, the row dict, `Vacancy`, `process_vacancies` |
| `year_salary.dfy` | `YearSalaries` | `YearSalary` and `convert_to_param_salary` |
| `missing_years.dfy` | `MissingYears` | `__add_missing_years`, including `list.insert` clamping and negative indexing |
| `statistic.dfy` | `Statistic` | `__convert_from_param_salary_to_dict`, `process_data`, and the merge of the per-file results |
| `split_by_year.dfy` | `SplitByYear` | `__csv_process`, the writer's records, and the directory of year files |

How the model handles the parts of the program it does not model directly:

* The exceptions the model covers (`KeyError`, `ValueError` from `int()`,
  `float()` and the CSV writer, and list `IndexError`) are `Err` values,
  propagated with `:-` in the order the source evaluates. Where the source
  raises one of these, the model has no precondition. The payload of an `Err`
  (the offset inside `IndexError`, say) is the model's own record of the
  cause; Python's messages do not always carry it.
* `float()` on a CSV field is the parameter `parseFloat`, where `None` means
  `ValueError`.
* The file system of the splitter is a map from year to the cleaned rows
  handed to the writer for that year, where a later write replaces an earlier
  one (`SplitByYear.Store`). What the writer makes of each row is
  `SplitByYear.WrittenRow`: with distinct headers it is the row itself
  (`SplitByYear.WrittenRowOfDistinct`), and with a repeated header every copy
  takes the value of the last column of that name
  (`SplitByYear.WrittenRowOfRecord`).
* Reading CSV files is left out: a file is its header row plus its data rows.

## Model

| member | source | states |
|---|---|---|
| Salaries.Average | Daniil-Obukhov-at-36-3.2.3.py:46 | The sum of the bounds is truncated toward zero before halving, so the result is a whole or half unit within half a unit of the true midpoint. |
| Salaries.ConvertBounds | Daniil-Obukhov-at-36-3.2.3.py:46-69 | For non-negative bounds, the converted value is non-negative, at most the exact midpoint times the rate, and more than (midpoint − ½) times the rate. |
| Salaries.ConvertExamples | Daniil-Obukhov-at-36-3.2.3.py:52-56 | Shows the documented conversions (100–200 RUR gives 150.0, 100–200 AZN gives 5352.0) and the half-unit case. An unknown currency gives KeyError. |
| Salaries.MakeSalary | Daniil-Obukhov-at-36-3.2.3.py:43-45 | A salary is built exactly when both bounds parse. The lower bound is parsed first, so its ValueError wins when both are bad. |
| Numbers.Trunc | Daniil-Obukhov-at-36-3.2.3.py:586 | `int()` on a number rounds toward zero, characterised separately for non-negative and negative arguments. |
| Numbers.ParseIntOfDecimal | Daniil-Obukhov-at-36-3.2.3.py:585 | `int()` reads back any decimal numeral, with or without a minus sign, as the number it denotes. |
| Numbers.ParseIntExamples | Daniil-Obukhov-at-36-3.2.3.py:603 | `int("2007")` is 2007. |
| Numbers.ParseIntOfSeparatorPrefix | Daniil-Obukhov-at-36-3.2.3.py:603 | `int()` does not skip the separator U+001C in front of a numeral, although `str.split()` counts it as whitespace, so it raises ValueError. |
| Numbers.ParseIntOfNoBreakSpace | Daniil-Obukhov-at-36-3.2.3.py:603 | `int()` skips a non-ASCII space such as U+00A0 in front of a numeral. |
| Text.Head | Daniil-Obukhov-at-36-3.2.3.py:104 | `s[:n]` is the prefix of length min(n, \|s\|). |
| Text.StripTagsLeavesNoTag | Daniil-Obukhov-at-36-3.2.3.py:228 | After tag removal, no `<…>` with no newline inside is left. |
| Text.StripTagsOfTagFree | Daniil-Obukhov-at-36-3.2.3.py:228 | Tag removal leaves tag-free text unchanged. |
| Text.ReplaceNewlines | Daniil-Obukhov-at-36-3.2.3.py:228 | The result has no newline, and text without a newline is unchanged. |
| Text.SplitFromJoin | Daniil-Obukhov-at-36-3.2.3.py:228 | Splitting on whitespace and re-joining with single spaces gives normalised text back unchanged. |
| Text.CleanFieldNormalized | Daniil-Obukhov-at-36-3.2.3.py:228 | A cleaned value has no newline, no leading or trailing whitespace, no double space, and no whitespace other than single spaces. |
| Text.CleanFieldOfClean | Daniil-Obukhov-at-36-3.2.3.py:228 | Cleaning is the identity on values that are already tag-free and normalised, so cleaning twice is cleaning once for those. |
| Text.CleanFieldOfBlank | Daniil-Obukhov-at-36-3.2.3.py:227-228 | A value of spaces or tabs passes the raw emptiness check but cleans to the empty string. |
| Text.CleanFieldOfTagged | Daniil-Obukhov-at-36-3.2.3.py:228 | A word wrapped in an opening and a closing tag, as in `<b>x</b>`, cleans to the word alone. |
| Text.CleanFieldOfTwoLines | Daniil-Obukhov-at-36-3.2.3.py:228 | A newline between two words becomes `"; "`, so `a\nb` cleans to `a; b`. |
| Text.CleanFieldLoneNewline | Daniil-Obukhov-at-36-3.2.3.py:228 | A value that is a lone newline cleans to `";"`. |
| Text.CleanFieldOfBrokenTag | Daniil-Obukhov-at-36-3.2.3.py:228 | `<w\n>` is not a tag for the pattern because `.` does not match a newline, so it survives and cleans to `<w; >`, which does hold a tag. |
| Text.ReplaceNewlinesAppend | Daniil-Obukhov-at-36-3.2.3.py:228 | Newline replacement distributes over concatenation. |
| Text.StripTagsAfterPlain | Daniil-Obukhov-at-36-3.2.3.py:228 | Text with no `<` passes tag removal unchanged in front of whatever follows. |
| DataSet.CleanRowNormalized | Daniil-Obukhov-at-36-3.2.3.py:228 | Cleaning keeps the row's length and normalises every value. |
| DataSet.ValidCleanedRowsAppend | Daniil-Obukhov-at-36-3.2.3.py:226-228 | The row filter distributes over concatenation, so valid rows keep their order. |
| DataSet.InvalidRowDropped | Daniil-Obukhov-at-36-3.2.3.py:227 | A row with the wrong length or an empty raw value contributes nothing, wherever it stands. |
| DataSet.ValidCleanedRowsCount | Daniil-Obukhov-at-36-3.2.3.py:226-229 | There is exactly one kept row per row that passes the check. |
| DataSet.RowDictGet | Daniil-Obukhov-at-36-3.2.3.py:229 | The row dict's keys are the headers without repeats. A header maps to the value of its last column, and any other key is missing. |
| DataSet.RowDictOfDistinct | Daniil-Obukhov-at-36-3.2.3.py:229 | With distinct headers, the row dict is exactly the zipped header and value pairs. |
| DataSet.Lookup | Daniil-Obukhov-at-36-3.2.3.py:98 | `d[k]` gives the key's value, or KeyError(k) exactly when the key is absent. |
| DataSet.SalaryOf | Daniil-Obukhov-at-36-3.2.3.py:99-101 | The salary part succeeds exactly when its three columns exist and both bounds parse, and then it carries those values. A KeyError names a missing salary column. |
| DataSet.MakeVacancy | Daniil-Obukhov-at-36-3.2.3.py:98-104 | A vacancy is built exactly when the name, salary, area and date columns exist and the salary builds. It then carries those values, and its year is the first four characters of the date. A KeyError names a missing column the constructor reads, and a missing name raises first. |
| DataSet.BuildRowOfFields | Daniil-Obukhov-at-36-3.2.3.py:87-104 | With the six documented headers, a row builds the vacancy of its own columns. It fails only when a salary bound is not a number. |
| DataSet.ProcessVacanciesSpec | Daniil-Obukhov-at-36-3.2.3.py:215-230 | Processing succeeds exactly when every valid cleaned row builds a vacancy. It then yields one vacancy per valid row, in row order. Otherwise the error is that of the first valid row that fails to build. |
| DataSet.ProcessVacanciesExample | Daniil-Obukhov-at-36-3.2.3.py:545-551 | The documented row gives one vacancy named "Системный аналитик" with year "2007", and its salary converts to 85000 roubles. |
| YearSalaries.YearSalaryExamples | Daniil-Obukhov-at-36-3.2.3.py:252-268 | 1000–2000 USD gives a bucket of 90990.0. Adding 200–300 RUR to 100–200 RUR gives 400.0 with count 2. |
| YearSalaries.ConvertToParamSalarySpec | Daniil-Obukhov-at-36-3.2.3.py:569-575 | Grouping succeeds exactly when every currency is known. It then gives one bucket per distinct year, in order of first appearance. Each bucket's count and sum are its year's vacancy count and converted-salary sum, and the counts add up to the number of vacancies. |
| YearSalaries.AccumulateStep | Daniil-Obukhov-at-36-3.2.3.py:571-574 | One loop step either raises KeyError for the vacancy's currency, or extends the summary by that vacancy. |
| MissingYears.PyInsert | Daniil-Obukhov-at-36-3.2.3.py:603 | The inserted element sits at the clamped position, with the list unchanged before and after it. |
| MissingYears.PyIndex | Daniil-Obukhov-at-36-3.2.3.py:604 | Indexing reads position i or len + i, and raises IndexError outside −len..len−1. |
| MissingYears.ExpectedShape | Daniil-Obukhov-at-36-3.2.3.py:589-605 | The intended result lists the reference years in order, with a zero bucket of count 0 for each missing year and every filtered bucket unchanged at its year's position. |
| MissingYears.AddMissingYearsGood | Daniil-Obukhov-at-36-3.2.3.py:599-605 | If the reference years read as consecutive ascending integers and the filtered years follow the same order, gap filling raises nothing and produces exactly the intended result. |
| MissingYears.FillFromGood | Daniil-Obukhov-at-36-3.2.3.py:601-604 | The loop invariant: after k reference years, the list is the intended prefix followed by the filtered buckets not yet passed. |
| MissingYears.InsertZeroOutOfRange | Daniil-Obukhov-at-36-3.2.3.py:603-604 | When the year offset is greater than len or less than −(len + 1), the insert clamps and the read after it raises IndexError; the model's payload is the offset. (At exactly −(len + 1) the insert clamps to the front and the read finds the new bucket, whose count is then zeroed; no error.) |
| MissingYears.InsertZeroAtFront | Daniil-Obukhov-at-36-3.2.3.py:603-604 | At offset exactly −(len + 1) the insert clamps to the front and the read finds the new bucket: no error, and the new bucket's count is set to zero. |
| MissingYears.InsertZeroNegative | Daniil-Obukhov-at-36-3.2.3.py:603-604 | A negative offset from −len to −1 inserts the zero bucket at len + offset, but the read after it lands one place further on: the element after the new bucket gets count 0, and the new bucket keeps count 1. |
| MissingYears.InsertZeroAtMinusOne | Daniil-Obukhov-at-36-3.2.3.py:603-604 | An offset of −1 inserts the zero bucket before the last element. The count that is then set to zero is the last element's, not the new bucket's. |
| MissingYears.AddMissingYearsPastEnd | Daniil-Obukhov-at-36-3.2.3.py:599-604 | Two reference years more than one year apart (2005, then 2010, say) make gap filling for a profession with only the first year raise IndexError; the model's payload is the year difference. |
| MissingYears.AddMissingYearsNegativeOffset | Daniil-Obukhov-at-36-3.2.3.py:599-604 | With reference years one year apart in descending order (2006, then 2005, say), the zero bucket goes first with count 1, and the count of the profession's real bucket is zeroed. |
| MissingYears.AddMissingYearsPhantomCount | Daniil-Obukhov-at-36-3.2.3.py:599-604 | A profession with no vacancies and reference years descending by one gets two zero buckets: the first year's count is zeroed again, and the second year keeps count 1, so the profession reports a vacancy it does not have. |
| Statistic.AverageSalary | Daniil-Obukhov-at-36-3.2.3.py:586 | The average is 0 for an empty bucket, and otherwise the quotient rounded toward zero, bounded on either side. |
| Statistic.ParseAllSpec | Daniil-Obukhov-at-36-3.2.3.py:585 | All years parse, one integer per text, or else the ValueError names a year text that is not an integer. |
| Statistic.ToDictsSpec | Daniil-Obukhov-at-36-3.2.3.py:585-587 | The dict conversion succeeds exactly when every year parses. Both dicts then have the parsed years as keys, in bucket order without repeats. A year maps to the average and count of its last bucket, and with distinct years the dicts are the buckets pair by pair. |
| Statistic.ZipDictSpec | Daniil-Obukhov-at-36-3.2.3.py:585-587 | A comprehension over zipped keys and values keeps each key's first position and its last value. |
| Statistic.ContainsSpec | Daniil-Obukhov-at-36-3.2.3.py:554 | `sub in s` holds exactly when sub occurs at some offset of s. |
| Statistic.FilterByProfessionSpec | Daniil-Obukhov-at-36-3.2.3.py:554 | The profession filter distributes over concatenation, so the order is kept. |
| Statistic.FilterByProfessionOne | Daniil-Obukhov-at-36-3.2.3.py:554 | A single vacancy is kept exactly when its name contains the profession. |
| Statistic.ProcessDataKeysPaired | Daniil-Obukhov-at-36-3.2.3.py:553-559 | In a file's result, the salary dict and the count dict share their key sequence, both over all vacancies and over the profession's. |
| Statistic.SingleYearFileAligned | Daniil-Obukhov-at-36-3.2.3.py:553-559 | A file whose vacancies all have one year (as the splitter writes them) gives four dicts with that year as their only key, or four empty dicts. This holds whether or not the profession occurs. |
| Statistic.MergeDictsKeys | Daniil-Obukhov-at-36-3.2.3.py:703-705 | The merged keys are the union of the files' keys, each placed where it was first introduced. |
| Statistic.MergeDictsGet | Daniil-Obukhov-at-36-3.2.3.py:703-705 | A merged key holds the value of the last file that has it, and a key no file has is absent. |
| Statistic.Collect | Daniil-Obukhov-at-36-3.2.3.py:702 | The results list is built exactly when every file succeeds, with one result per file in submission order. |
| Statistic.CollectFirstError | Daniil-Obukhov-at-36-3.2.3.py:702 | A failure is the error of the first file that failed. |
| Statistic.MergeStatsAligned | Daniil-Obukhov-at-36-3.2.3.py:703-705 | If each file's four dicts share one key sequence, so do the four merged dicts. |
| Statistic.MergeDisjoint | Daniil-Obukhov-at-36-3.2.3.py:701-705 | Two results with no year in common merge to their union, the first result's years first. |
| Statistic.MergeSharedKey | Daniil-Obukhov-at-36-3.2.3.py:701-705 | A year that the later result repeats keeps its position from the earlier result and takes the later value. |
| OrderedDict.UpdateKeys | Daniil-Obukhov-at-36-3.2.3.py:705 | `d.update(ps)` keeps d's keys and appends the new keys in order of first appearance. |
| OrderedDict.UpdateGet | Daniil-Obukhov-at-36-3.2.3.py:705 | After `d.update(ps)`, a key of ps has its last value in ps, and any other key keeps its value in d. |
| OrderedDict.Set | Daniil-Obukhov-at-36-3.2.3.py:572-574 | `d[k] = v` makes k map to v, appends k only if it is new, and leaves every other key alone. |
| SplitByYear.YearKey | Daniil-Obukhov-at-36-3.2.1.py:61 | `vacancy[-1][:4]` is the first four characters of the last value, and an empty row raises IndexError; the model's payload is the index −1. |
| SplitByYear.WrittenRow | Daniil-Obukhov-at-36-3.2.1.py:82-84 | `DictWriter` with its defaults fails with ValueError exactly when the record has a key that is not a header. Otherwise it puts out one value per header: the record's value, or "" for a header the record lacks. |
| SplitByYear.WrittenRowDefaults | Daniil-Obukhov-at-36-3.2.1.py:82-84 | A record lacking the only header is written as `[""]`, and a record with a key outside the headers raises ValueError. |
| SplitByYear.WrittenRowOfRecord | Daniil-Obukhov-at-36-3.2.1.py:59-60 | A record is always writable. Each written column holds the value of the last column with the same header. |
| SplitByYear.WrittenRowOfDistinct | Daniil-Obukhov-at-36-3.2.1.py:59-60 | With distinct headers, the written line is the cleaned row itself. |
| SplitByYear.ProcessFromOk | Daniil-Obukhov-at-36-3.2.1.py:57-66 | The loop fails exactly when a remaining row is empty, and then with IndexError (payload −1, the index read). |
| SplitByYear.ProcessFromFlatten | Daniil-Obukhov-at-36-3.2.1.py:57-67 | No row is lost or reordered: the emitted rows, in order, are the rows collected so far followed by the rest. |
| SplitByYear.ProcessFromHomogeneous | Daniil-Obukhov-at-36-3.2.1.py:61-66 | Every row in an emitted run has the run's year as its key. |
| SplitByYear.ProcessFromYearsChange | Daniil-Obukhov-at-36-3.2.1.py:61-65 | Consecutive runs never share a year, and a non-empty current run is emitted first. |
| SplitByYear.ProcessFromNonEmpty | Daniil-Obukhov-at-36-3.2.1.py:61-67 | No emitted run is empty, except the single year-"0" run written when there are no rows at all. |
| SplitByYear.CsvProcessSpec | Daniil-Obukhov-at-36-3.2.1.py:45-67 | Splitting fails only when the file has no headers but some empty row is valid. Otherwise the valid cleaned rows are cut, in order, into non-empty homogeneous runs whose years change from run to run. A file with no valid rows gives one empty run for year "0". |
| SplitByYear.StoreSpec | Daniil-Obukhov-at-36-3.2.1.py:80-81 | There is a file for every emitted year, and none for any other. It holds the rows of that year's last run. |
| SplitByYear.StoreOfDistinctYears | Daniil-Obukhov-at-36-3.2.1.py:80-81 | When no year is emitted twice, every run's rows are on disk. |
| SplitByYear.StoreLosesEarlierRun | Daniil-Obukhov-at-36-3.2.1.py:57-67 | If a year comes back after another year (2007, 2008, 2007, say), the loop emits three runs. The file of the returning year then holds only its later run. |
| SplitByYear.ProcessFromGrouped | Daniil-Obukhov-at-36-3.2.1.py:57-66 | If the keys never return once left, the loop emits each year at most once, and only years it has seen. |
| SplitByYear.CsvProcessGrouped | Daniil-Obukhov-at-36-3.2.1.py:54-67 | A file whose valid rows are grouped by year (for instance, sorted by date) gets every valid row onto disk. |

## Behaviour worth knowing

The model keeps these behaviours of the code as written:

* **Row validity** is checked on the raw values, with `v != ""`. A value of
  only spaces therefore passes the check and then cleans to `""`
  (`Text.CleanFieldOfBlank`). A lone newline cleans to `";"` (`Text.CleanFieldLoneNewline`).
* **The midpoint of a salary** is `int(from + to) / 2`: the sum is truncated
  before halving, so the midpoint is a whole or half unit.
* **`int()` on a year text** skips ASCII whitespace and non-ASCII spaces, but
  not the separators U+001C..U+001F that `str.split()` treats as whitespace
  (`Numbers.ParseIntOfSeparatorPrefix`).
* **Every `int()` on a number** rounds toward zero, not down.
* **A tag broken by a newline survives cleaning** as a tag: `"<p\n>"` becomes
  `"<p; >"` (`Text.CleanFieldOfBrokenTag`).
* **Gap filling is only right for consecutive ascending years.** Otherwise the
  offset `int(y) - int(years[0])` falls outside 0..len, where len is the
  length of the list so far, and the result depends on its range:
  * above len: IndexError (`MissingYears.InsertZeroOutOfRange`,
    `MissingYears.AddMissingYearsPastEnd`);
  * −len..−1: the zero bucket goes in at len + offset and keeps count 1, and
    the element after it has its count zeroed
    (`MissingYears.InsertZeroNegative`, `MissingYears.InsertZeroAtMinusOne`).
    That element can be a real bucket
    (`MissingYears.AddMissingYearsNegativeOffset`) or an earlier zero bucket,
    so a profession with no vacancies can report a count of 1
    (`MissingYears.AddMissingYearsPhantomCount`);
  * exactly −(len + 1): the zero bucket goes to the front and its own count
    is zeroed (`MissingYears.InsertZeroAtFront`);
  * below −(len + 1): IndexError (`MissingYears.InsertZeroOutOfRange`).
* **Key order between the dicts.** Within one file, the keys of the salary
  dict and the count dict always agree (`Statistic.ProcessDataKeysPaired`).
  The all-vacancies dicts and the profession dicts agree when the file holds
  one year (`Statistic.SingleYearFileAligned`), which is what the splitter
  produces. In a file holding several years, the profession's keys follow the
  order in which its own years first appear.

## Left out

* Reading and writing files: CSV parsing and quoting, the `utf-8-sig`
  encoding, `os.mkdir` and its error when the directory exists, `iterdir`,
  the output file names and the prompts. A file is modelled as its header row
  and data rows, and a write as the year and the cleaned rows handed to the
  writer; `SplitByYear.WrittenRow` states what the writer turns each into.
* The process pool: `executor.map` is modelled as the sequential map in
  submission order. That is the order in which its results are returned.
* `Report`, `Graphic`, `PdfConverter`, `CreateStatisticFiles` and
  `InputConnect`: Excel, chart, HTML and PDF rendering, and console input.
* `float()`: the parameter `parseFloat` stands for it. The model computes
  with exact reals, so IEEE rounding of the products and quotients is not
  modelled.
* Infinite and NaN floats: every `float()` result is taken to be finite. So
  `float("inf")`, `float("nan")` and sums that overflow (two bounds of
  `"1e308"`) are not modelled, nor the OverflowError or ValueError that
  `int()` raises on such values (lines 46 and 586 of
  Daniil-Obukhov-at-36-3.2.3.py). `Salaries.Average` and
  `Statistic.AverageSalary` therefore cannot fail.
* `int()` on text: only ASCII digits are accepted. Python also accepts other
  Unicode decimal digits.
* The regular-expression engine: `re.sub("<.*?>", "", s)` is modelled as an
  explicit left-to-right scan with the same lazy, single-line matching.
* `YearSalaries.AddSalary`: it does not model that the source raises the
  count before the conversion raises KeyError. The bucket is discarded with
  the exception, so the difference cannot be observed.
* `MissingYears.ZeroBucket`: `Salary("0", "0", "RUR")` is built from the
  literal 0.0 rather than through `parseFloat`. `float("0")` is 0.0.
* `Numbers.StripStart`: its contract states what the first character is. It
  does not state that the result is a suffix of the input.
* The copy of `SplitCsvFileByYear` inside `Daniil-Obukhov-at-36-3.2.3.py`
  (lines 107-183) is the same code as `Daniil-Obukhov-at-36-3.2.1.py`. Only
  the latter is cited.

=== FILE: dataset.dfy ===
/** Turning the rows of one CSV file into vacancies: rows are kept when they
    have one value per header and no empty raw value, every kept value is
    cleaned, and each kept row becomes a dict from header to value and then a
    `Vacancy`. */
module DataSet {
  import opened Results
  import opened Seqs
  import opened OrderedDict
  import opened Text
  import opened Salaries

  type Row = seq<string>

  /** The filter shared by the statistics and the year splitter: the check is
      on the raw values, before cleaning. */
  predicate IsValidRow(headers: Row, row: Row) {
    |row| == |headers| && forall i :: 0 <= i < |row| ==> row[i] != ""
  }

  function CleanRow(row: Row): Row {
    seq(|row|, i requires 0 <= i < |row| => CleanField(row[i]))
  }

  /** Every value of a cleaned row is single-spaced, trimmed and free of line breaks. */
  lemma CleanRowNormalized(row: Row)
    ensures |CleanRow(row)| == |row|
    ensures forall i :: 0 <= i < |row| ==> Normalized(CleanRow(row)[i]) && '\n' !in CleanRow(row)[i]
  {
    forall i | 0 <= i < |row| {
      CleanFieldNormalized(row[i]);
    }
  }

  /** The valid rows, cleaned, in input order. */
  function ValidCleanedRows(headers: Row, rows: seq<Row>): seq<Row>
    decreases |rows|
  {
    if |rows| == 0 then []
    else
      var kept := ValidCleanedRows(headers, rows[..|rows| - 1]);
      var last := rows[|rows| - 1];
      if IsValidRow(headers, last) then kept + [CleanRow(last)] else kept
  }

  /** How many rows pass the filter. */
  function CountValid(headers: Row, rows: seq<Row>): nat
    decreases |rows|
  {
    if |rows| == 0 then 0
    else (if IsValidRow(headers, rows[0]) then 1 else 0) + CountValid(headers, rows[1..])
  }

  /** A single row contributes itself, cleaned, exactly when it is valid. */
  lemma ValidCleanedRowsSingle(headers: Row, row: Row)
    ensures ValidCleanedRows(headers, [row]) == if IsValidRow(headers, row) then [CleanRow(row)] else []
  {
    assert [row][..0] == [];
  }

  /** Filtering distributes over concatenation, so rows are neither reordered
      nor merged across a split of the input. */
  lemma {:induction false} ValidCleanedRowsAppend(headers: Row, a: seq<Row>, b: seq<Row>)
    ensures ValidCleanedRows(headers, a + b) == ValidCleanedRows(headers, a) + ValidCleanedRows(headers, b)
    decreases |b|
  {
    if |b| == 0 {
      assert a + b == a;
    } else {
      var b' := b[..|b| - 1];
      ValidCleanedRowsAppend(headers, a, b');
      assert (a + b)[..|a + b| - 1] == a + b';
      assert (a + b)[|a + b| - 1] == b[|b| - 1];
    }
  }

  /** An invalid row contributes nothing wherever it stands. */
  lemma InvalidRowDropped(headers: Row, a: seq<Row>, row: Row, b: seq<Row>)
    requires !IsValidRow(headers, row)
    ensures ValidCleanedRows(headers, a + [row] + b) == ValidCleanedRows(headers, a + b)
  {
    ValidCleanedRowsAppend(headers, a + [row], b);
    ValidCleanedRowsAppend(headers, a, [row]);
    ValidCleanedRowsSingle(headers, row);
    ValidCleanedRowsAppend(headers, a, b);
  }

  /** One output row per valid input row. */
  lemma {:induction false} ValidCleanedRowsCount(headers: Row, rows: seq<Row>)
    ensures |ValidCleanedRows(headers, rows)| == CountValid(headers, rows)
    decreases |rows|
  {
    if |rows| > 0 {
      ValidCleanedRowsCount(headers, rows[1..]);
      assert rows == [rows[0]] + rows[1..];
      ValidCleanedRowsAppend(headers, [rows[0]], rows[1..]);
      ValidCleanedRowsSingle(headers, rows[0]);
    }
  }

  /** The dict `{h: v for h, v in zip(headers, row)}`. */
  function RowDict(headers: Row, row: Row): Dict<string, string> {
    FromPairs(Zip(headers, row))
  }

  /** A header maps to the value of its last column: with repeated headers the
      later column wins. */
  lemma RowDictGet(headers: Row, row: Row, k: string)
    requires |row| == |headers|
    ensures Keys(RowDict(headers, row)) == Dedup(headers)
    ensures k in headers ==> Get(RowDict(headers, row), k) == Some(row[LastIndex(headers, k)])
    ensures k !in headers ==> Get(RowDict(headers, row), k).None?
  {
    var ps := Zip(headers, row);
    assert Keys(ps) == headers;
    var empty: Dict<string, string> := [];
    UpdateKeys(empty, ps);
    assert Keys(empty) + Keys(ps) == headers;
    UpdateGet(empty, ps, k);
  }

  /** With distinct headers the dict is the zipped row itself. */
  lemma RowDictOfDistinct(headers: Row, row: Row)
    requires |row| == |headers| && Distinct(headers)
    ensures RowDict(headers, row) == Zip(headers, row)
  {
    assert Keys(Zip(headers, row)) == headers;
    FromPairsOfDistinct(Zip(headers, row));
  }

  datatype Vacancy = Vacancy(name: string, salary: Salary, areaName: string, publishedAt: string, year: string)

  /** `d[k]` on a row dict. */
  function Lookup(d: Dict<string, string>, k: string): (r: Result<string>)
    ensures r.Ok? <==> k in Keys(d)
    ensures r.Ok? ==> Get(d, k) == Some(r.value)
    ensures r.Err? ==> r.error == KeyError(k)
  {
    match Get(d, k)
    case Some(v) => Ok(v)
    case None => Err(KeyError(k))
  }

  /** The columns a vacancy reads, in the order it reads them. */
  const Fields: seq<string> := ["name", "salary_from", "salary_to", "salary_currency", "area_name", "published_at"]

  /** The salary part of `Vacancy(d)`: the three salary columns, then the two
      float conversions. */
  function SalaryOf(parseFloat: string -> Option<real>, d: Dict<string, string>): (r: Result<Salary>)
    ensures r.Ok? <==>
      && "salary_from" in Keys(d) && "salary_to" in Keys(d) && "salary_currency" in Keys(d)
      && parseFloat(Get(d, "salary_from").value).Some?
      && parseFloat(Get(d, "salary_to").value).Some?
    ensures r.Ok? ==> r.value == Salary(parseFloat(Get(d, "salary_from").value).value,
                                        parseFloat(Get(d, "salary_to").value).value,
                                        Get(d, "salary_currency").value)
    ensures r.Err? && r.error.KeyError? ==>
      r.error.key in ["salary_from", "salary_to", "salary_currency"] && r.error.key !in Keys(d)
  {
    var from :- Lookup(d, "salary_from");
    var to :- Lookup(d, "salary_to");
    var currency :- Lookup(d, "salary_currency");
    MakeSalary(parseFloat, from, to, currency)
  }

  /** `Vacancy(d)`: the name, the salary, then the area and the publication
      date; the first failing step raises. The year is the first four
      characters of the date. */
  function MakeVacancy(parseFloat: string -> Option<real>, d: Dict<string, string>): (r: Result<Vacancy>)
    ensures r.Ok? <==> "name" in Keys(d) && SalaryOf(parseFloat, d).Ok? && "area_name" in Keys(d) && "published_at" in Keys(d)
    ensures r.Ok? ==>
      && Get(d, "name") == Some(r.value.name)
      && Get(d, "area_name") == Some(r.value.areaName)
      && Get(d, "published_at") == Some(r.value.publishedAt)
      && SalaryOf(parseFloat, d) == Ok(r.value.salary)
      && |r.value.year| == (if |r.value.publishedAt| < 4 then |r.value.publishedAt| else 4)
      && r.value.year == r.value.publishedAt[..|r.value.year|]
    ensures r.Err? && r.error.KeyError? ==> r.error.key in Fields && r.error.key !in Keys(d)
    ensures "name" !in Keys(d) ==> r == Err(KeyError("name"))
  {
    var name :- Lookup(d, "name");
    var salary :- SalaryOf(parseFloat, d);
    var area :- Lookup(d, "area_name");
    var published :- Lookup(d, "published_at");
    Ok(Vacancy(name, salary, area, published, Head(published, 4)))
  }

  /** `process_vacancies`: one vacancy per valid row, built from the cleaned
      row in input order; the first row that fails to build raises. */
  function ProcessVacancies(parseFloat: string -> Option<real>, headers: Row, rows: seq<Row>): Result<seq<Vacancy>>
    decreases |rows|
  {
    if |rows| == 0 then Ok([])
    else
      var done :- ProcessVacancies(parseFloat, headers, rows[..|rows| - 1]);
      var last := rows[|rows| - 1];
      if IsValidRow(headers, last) then
        var v :- MakeVacancy(parseFloat, RowDict(headers, CleanRow(last)));
        Ok(done + [v])
      else Ok(done)
  }

  /** The vacancy a cleaned row builds, or its error. */
  function BuildRow(parseFloat: string -> Option<real>, headers: Row, row: Row): Result<Vacancy> {
    MakeVacancy(parseFloat, RowDict(headers, row))
  }

  /** Row `i` is the first of `valid` that fails to build. */
  predicate FirstFailureAt(parseFloat: string -> Option<real>, headers: Row, valid: seq<Row>, i: int) {
    && 0 <= i < |valid| && BuildRow(parseFloat, headers, valid[i]).Err?
    && forall j :: 0 <= j < i ==> BuildRow(parseFloat, headers, valid[j]).Ok?
  }

  /** `r` is what processing the rows `valid` should give: success exactly when
      every row builds, and then one vacancy per row, in order; on failure, the
      error of the first row that fails to build. */
  predicate ProcessedAs(parseFloat: string -> Option<real>, headers: Row, valid: seq<Row>, r: Result<seq<Vacancy>>) {
    && (r.Ok? <==> forall j :: 0 <= j < |valid| ==> BuildRow(parseFloat, headers, valid[j]).Ok?)
    && (r.Ok? ==> (&& |r.value| == |valid|
                   && forall j :: 0 <= j < |valid| ==> BuildRow(parseFloat, headers, valid[j]) == Ok(r.value[j])))
    && (r.Err? ==> exists i :: 0 <= i < |valid| && FirstFailureAt(parseFloat, headers, valid, i)
                              && BuildRow(parseFloat, headers, valid[i]) == Err(r.error))
  }

  /** Processing succeeds exactly when every valid cleaned row builds, and then
      yields those vacancies in row order, one per valid row. */
  lemma {:induction false} ProcessVacanciesSpec(parseFloat: string -> Option<real>, headers: Row, rows: seq<Row>)
    ensures ProcessedAs(parseFloat, headers, ValidCleanedRows(headers, rows), ProcessVacancies(parseFloat, headers, rows))
    decreases |rows|
  {
    if |rows| > 0 {
      var prefix := rows[..|rows| - 1];
      var last := rows[|rows| - 1];
      ProcessVacanciesSpec(parseFloat, headers, prefix);
      var kept, done := ValidCleanedRows(headers, prefix), ProcessVacancies(parseFloat, headers, prefix);
      if IsValidRow(headers, last) {
        var row := CleanRow(last);
        var b := BuildRow(parseFloat, headers, row);
        if done.Err? {
          ProcessedAfterError(parseFloat, headers, kept, row, done);
        } else if b.Err? {
          ProcessedRowError(parseFloat, headers, kept, row, done.value, b.error);
        } else {
          ProcessedRowOk(parseFloat, headers, kept, row, done.value);
        }
      }
    }
  }

  /** Once a row has failed, the result stays that failure. */
  lemma ProcessedAfterError(parseFloat: string -> Option<real>, headers: Row, kept: seq<Row>, row: Row, done: Result<seq<Vacancy>>)
    requires ProcessedAs(parseFloat, headers, kept, done) && done.Err?
    ensures ProcessedAs(parseFloat, headers, kept + [row], done)
  {
    var i :| 0 <= i < |kept| && FirstFailureAt(parseFloat, headers, kept, i) && BuildRow(parseFloat, headers, kept[i]) == Err(done.error);
    var all := kept + [row];
    assert all[i] == kept[i];
    assert forall j :: 0 <= j < i ==> all[j] == kept[j];
    assert FirstFailureAt(parseFloat, headers, all, i);
  }

  /** After rows that all build, a row that fails makes its error the result. */
  lemma ProcessedRowError(parseFloat: string -> Option<real>, headers: Row, kept: seq<Row>, row: Row, vs: seq<Vacancy>, e: Error)
    requires ProcessedAs(parseFloat, headers, kept, Ok(vs)) && BuildRow(parseFloat, headers, row) == Err(e)
    ensures ProcessedAs(parseFloat, headers, kept + [row], Err(e))
  {
    var all := kept + [row];
    assert all[|kept|] == row;
    assert forall j :: 0 <= j < |kept| ==> all[j] == kept[j];
    assert FirstFailureAt(parseFloat, headers, all, |kept|);
  }

  /** A row that builds adds its vacancy at the end. */
  lemma ProcessedRowOk(parseFloat: string -> Option<real>, headers: Row, kept: seq<Row>, row: Row, vs: seq<Vacancy>)
    requires ProcessedAs(parseFloat, headers, kept, Ok(vs)) && BuildRow(parseFloat, headers, row).Ok?
    ensures ProcessedAs(parseFloat, headers, kept + [row], Ok(vs + [BuildRow(parseFloat, headers, row).value]))
  {
    var valid, r := kept + [row], vs + [BuildRow(parseFloat, headers, row).value];
    forall j | 0 <= j < |valid|
      ensures BuildRow(parseFloat, headers, valid[j]) == Ok(r[j])
    {
      if j < |kept| {
        assert valid[j] == kept[j] && r[j] == vs[j];
      } else {
        assert valid[j] == row;
      }
    }
  }

  /** A single word without `<` is kept as it is. */
  lemma CleanFieldOfWord(w: string)
    requires IsWord(w) && '<' !in w
    ensures CleanField(w) == w
  {
    CleanFieldOfClean(w);
  }

  /** Two such words separated by one space are kept as they are. */
  lemma CleanFieldOfTwoWords(a: string, b: string)
    requires IsWord(a) && IsWord(b) && '<' !in a && '<' !in b
    ensures CleanField(a + " " + b) == a + " " + b
  {
    var s := a + " " + b;
    JoinNormalized([a, b]);
    assert Join([a, b]) == s;
    assert '<' !in s;
    CleanFieldOfClean(s);
  }

  /** The documented single-row run: the name is kept, the year is "2007"
      and the salary converts to 85000 roubles. */
  lemma ProcessVacanciesExample(parseFloat: string -> Option<real>)
    requires parseFloat("75000.0") == Some(75000.0) && parseFloat("95000.0") == Some(95000.0)
    ensures var r := ProcessVacancies(parseFloat, Fields, [ExampleRow]);
      && r.Ok? && |r.value| == 1
      && r.value[0].name == "Системный аналитик"
      && r.value[0].year == "2007"
      && ConvertToRubles(r.value[0].salary) == Ok(85000.0)
  {
    ExampleRowIsValid();
    ExampleRowIsClean();
    ExampleBuild(parseFloat);
    ProcessOneRow(parseFloat, Fields, ExampleRow);
    ConvertExamples();
  }

  /** A file of one valid row gives that row's vacancy, or its error. */
  lemma ProcessOneRow(parseFloat: string -> Option<real>, headers: Row, row: Row)
    requires IsValidRow(headers, row)
    ensures BuildRow(parseFloat, headers, CleanRow(row)).Ok? ==>
      ProcessVacancies(parseFloat, headers, [row]) == Ok([BuildRow(parseFloat, headers, CleanRow(row)).value])
    ensures BuildRow(parseFloat, headers, CleanRow(row)).Err? ==>
      ProcessVacancies(parseFloat, headers, [row]) == Err(BuildRow(parseFloat, headers, CleanRow(row)).error)
  {
    var rows := [row];
    assert rows[..0] == [] && rows[0] == row;
    assert ProcessVacancies(parseFloat, headers, []) == Ok([]);
    var b := BuildRow(parseFloat, headers, CleanRow(row));
    if b.Ok? {
      assert [] + [b.value] == [b.value];
    }
  }

  /** With the six documented headers, a row builds the vacancy of its own
      columns; it fails only when a salary bound is not a number. */
  lemma BuildRowOfFields(parseFloat: string -> Option<real>, row: Row)
    requires |row| == |Fields|
    ensures BuildRow(parseFloat, Fields, row).Ok? <==> parseFloat(row[1]).Some? && parseFloat(row[2]).Some?
    ensures parseFloat(row[1]).Some? && parseFloat(row[2]).Some? ==>
      BuildRow(parseFloat, Fields, row) ==
        Ok(Vacancy(row[0], Salary(parseFloat(row[1]).value, parseFloat(row[2]).value, row[3]), row[4], row[5], Head(row[5], 4)))
  {
    var d := RowDict(Fields, row);
    FieldsDictGet(row);
    assert SalaryOf(parseFloat, d) == MakeSalary(parseFloat, row[1], row[2], row[3]);
  }

  /** Each of the six documented headers holds its own column. */
  lemma FieldsDictGet(row: Row)
    requires |row| == |Fields|
    ensures var d := RowDict(Fields, row);
      && Get(d, "name") == Some(row[0]) && Get(d, "salary_from") == Some(row[1])
      && Get(d, "salary_to") == Some(row[2]) && Get(d, "salary_currency") == Some(row[3])
      && Get(d, "area_name") == Some(row[4]) && Get(d, "published_at") == Some(row[5])
  {
    FieldsDistinct();
    RowDictOfDistinct(Fields, row);
    GetZipDistinct(Fields, row, 0);
    GetZipDistinct(Fields, row, 1);
    GetZipDistinct(Fields, row, 2);
    GetZipDistinct(Fields, row, 3);
    GetZipDistinct(Fields, row, 4);
    GetZipDistinct(Fields, row, 5);
  }

  lemma ExampleBuild(parseFloat: string -> Option<real>)
    requires parseFloat("75000.0") == Some(75000.0) && parseFloat("95000.0") == Some(95000.0)
    ensures BuildRow(parseFloat, Fields, ExampleRow) ==
      Ok(Vacancy("Системный аналитик", Salary(75000.0, 95000.0, "RUR"), "Москва", "2007-12-03T17:41:49+0300", "2007"))
  {
    var row := ExampleRow;
    assert row[0] == "Системный аналитик" && row[1] == "75000.0" && row[2] == "95000.0";
    assert row[3] == "RUR" && row[4] == "Москва" && row[5] == "2007-12-03T17:41:49+0300";
    BuildRowOfFields(parseFloat, row);
    ExampleYear();
  }

  lemma ExampleYear()
    ensures Head("2007-12-03T17:41:49+0300", 4) == "2007"
  {
  }

  lemma FieldsDistinct()
    ensures Distinct(Fields)
  {
  }

  /** In a dict zipped from distinct keys, each key holds the value at its own position. */
  lemma GetZipDistinct<V>(ks: seq<string>, vs: seq<V>, i: nat)
    requires Distinct(ks) && |vs| == |ks| && i < |ks|
    ensures Get(Zip(ks, vs), ks[i]) == Some(vs[i])
  {
    var d := Zip(ks, vs);
    assert Keys(d) == ks;
    assert ks[i] !in ks[..i];
    FirstIndexUnique(ks, ks[i], i);
  }

  const ExampleRow: Row := ["Системный аналитик", "75000.0", "95000.0", "RUR", "Москва", "2007-12-03T17:41:49+0300"]

  lemma ExampleRowIsValid()
    ensures IsValidRow(Fields, ExampleRow)
  {
  }

  lemma ExampleRowIsClean()
    ensures CleanRow(ExampleRow) == ExampleRow
  {
    ExampleNameIsClean();
    ExampleWordIsClean0();
    ExampleWordIsClean1();
    ExampleWordIsClean2();
    ExampleWordIsClean3();
    ExampleWordIsClean4();
    CleanRowOfClean(ExampleRow[0], ExampleRow[1], ExampleRow[2], ExampleRow[3], ExampleRow[4], ExampleRow[5]);
  }

  lemma CleanRowOfClean(a: string, b: string, c: string, d: string, e: string, f: string)
    requires CleanField(a) == a && CleanField(b) == b && CleanField(c) == c
    requires CleanField(d) == d && CleanField(e) == e && CleanField(f) == f
    ensures CleanRow([a, b, c, d, e, f]) == [a, b, c, d, e, f]
  {
  }

  lemma ExampleNameIsClean()
    ensures CleanField("Системный аналитик") == "Системный аналитик"
  {
    assert IsWord("Системный") && IsWord("аналитик");
    CleanFieldOfTwoWords("Системный", "аналитик");
    assert "Системный" + " " + "аналитик" == "Системный аналитик";
  }

  lemma ExampleWordIsClean0()
    ensures CleanField("75000.0") == "75000.0"
  {
    assert IsWord("75000.0");
    CleanFieldOfWord("75000.0");
  }

  lemma ExampleWordIsClean1()
    ensures CleanField("95000.0") == "95000.0"
  {
    assert IsWord("95000.0");
    CleanFieldOfWord("95000.0");
  }

  lemma ExampleWordIsClean2()
    ensures CleanField("RUR") == "RUR"
  {
    assert IsWord("RUR");
    CleanFieldOfWord("RUR");
  }

  lemma ExampleWordIsClean3()
    ensures CleanField("Москва") == "Москва"
  {
    assert IsWord("Москва");
    CleanFieldOfWord("Москва");
  }

  lemma ExampleWordIsClean4()
    ensures CleanField("2007-12-03T17:41:49+0300") == "2007-12-03T17:41:49+0300"
  {
    assert IsWord("2007-12-03T17:41:49+0300");
    CleanFieldOfWord("2007-12-03T17:41:49+0300");
  }
}

=== FILE: missing_years.dfy ===
/** Filling in the years a profession's buckets lack. For every reference year
    missing from the filtered buckets, a zero bucket is inserted at offset
    `int(y) - int(years[0])` with Python's `list.insert`, and the bucket then
    found at that offset gets its count set to zero. This is right when the
    reference years are consecutive and ascending; otherwise the clamping of
    `insert` and the wrap-around of negative indexes come into play. */
module MissingYears {
  import opened Results
  import opened Seqs
  import opened Numbers
  import opened Salaries
  import opened YearSalaries

  /** Where `list.insert(i, x)` puts `x` in a list of length `len`: a negative
      offset counts from the end, and both ends clamp. */
  function PyInsertPosition(len: nat, i: int): (p: nat)
    ensures p <= len
    ensures 0 <= i <= len ==> p == i
    ensures len < i ==> p == len
    ensures i < 0 && 0 <= len + i ==> p == len + i
    ensures len + i < 0 ==> p == 0
  {
    if i < 0 then (if len + i < 0 then 0 else len + i)
    else if i <= len then i
    else len
  }

  /** `s.insert(i, x)` */
  function PyInsert<T>(s: seq<T>, i: int, x: T): (r: seq<T>)
    ensures var p := PyInsertPosition(|s|, i);
      |r| == |s| + 1 && r[p] == x && r[..p] == s[..p] && r[p + 1..] == s[p..]
  {
    var p := PyInsertPosition(|s|, i);
    s[..p] + [x] + s[p..]
  }

  /** The position `s[i]` reads in a list of length `len`, or IndexError. */
  function PyIndex(len: nat, i: int): (r: Result<nat>)
    ensures r.Ok? <==> -(len as int) <= i < len
    ensures r.Ok? ==> r.value < len && (r.value as int == i || r.value as int == len + i)
    ensures r.Err? ==> r.error == IndexError(i)
  {
    if 0 <= i < len then Ok(i)
    else if -(len as int) <= i < 0 then Ok(len + i)
    else Err(IndexError(i))
  }

  /** `int(s)`, raising ValueError. */
  function ParseYear(s: string): (r: Result<int>)
    ensures r.Ok? <==> ParseInt(s).Some?
    ensures r.Ok? ==> ParseInt(s) == Some(r.value)
    ensures r.Err? ==> r.error == ValueError(s)
  {
    match ParseInt(s)
    case Some(n) => Ok(n)
    case None => Err(ValueError(s))
  }

  /** `YearSalary(y, Salary("0", "0", "RUR"))`: a bucket with a zero salary and count one. */
  function ZeroBucket(y: string): (b: YearSalary)
    ensures b == YearSalary(y, 0.0, 1)
  {
    var r := NewYearSalary(y, Salary(0.0, 0.0, "RUR"));
    assert r.Ok?;
    r.value
  }

  /** The loop body for a missing year `y`: insert a zero bucket at the
      offset, then zero the count of whatever bucket the offset reads. */
  function InsertZero(list: seq<YearSalary>, y: string, first: string): (r: Result<seq<YearSalary>>)
    ensures r.Ok? ==> |r.value| == |list| + 1
  {
    var a :- ParseYear(y);
    var b :- ParseYear(first);
    var inserted := PyInsert(list, a - b, ZeroBucket(y));
    var i :- PyIndex(|inserted|, a - b);
    Ok(inserted[i := inserted[i].(count := 0)])
  }

  /** The loop from the `k`-th reference year on; `present` are the filtered
      years as they were before the loop. */
  function FillFrom(list: seq<YearSalary>, years: seq<string>, present: seq<string>, k: nat): Result<seq<YearSalary>>
    requires k <= |years|
    decreases |years| - k
  {
    if k == |years| then Ok(list)
    else if years[k] in present then FillFrom(list, years, present, k + 1)
    else
      var next :- InsertZero(list, years[k], years[0]);
      FillFrom(next, years, present, k + 1)
  }

  /** `__add_missing_years(filtered, reference)` */
  function AddMissingYears(filtered: seq<YearSalary>, reference: seq<YearSalary>): Result<seq<YearSalary>> {
    FillFrom(filtered, Params(reference), Params(filtered), 0)
  }

  /** The reference years read as `first`, `first + 1`, `first + 2`, ... */
  predicate Consecutive(years: seq<string>, first: int) {
    forall k :: 0 <= k < |years| ==> ParseInt(years[k]) == Some(first + k)
  }

  /** Every filtered year is a reference year, and they come in reference order. */
  predicate InReferenceOrder(present: seq<string>, years: seq<string>) {
    && (forall t :: 0 <= t < |present| ==> present[t] in years)
    && (forall t, u :: 0 <= t < u < |present| ==>
          present[t] in years && present[u] in years && FirstIndex(years, present[t]) < FirstIndex(years, present[u]))
  }

  /** What the gap filling is meant to produce: the filtered bucket of each
      reference year where there is one, and otherwise a bucket with zero
      salary and zero count. */
  function Expected(filtered: seq<YearSalary>, years: seq<string>): seq<YearSalary> {
    seq(|years|, k requires 0 <= k < |years| =>
      if years[k] in Params(filtered) then filtered[FirstIndex(Params(filtered), years[k])]
      else YearSalary(years[k], 0.0, 0))
  }

  /** The intended result has the reference years, zero buckets where the
      filtered list had none, and every filtered bucket, unchanged and in
      order, at its year's position. */
  lemma ExpectedShape(filtered: seq<YearSalary>, years: seq<string>)
    requires Distinct(years) && InReferenceOrder(Params(filtered), years)
    ensures Params(Expected(filtered, years)) == years
    ensures forall k :: 0 <= k < |years| && years[k] !in Params(filtered) ==>
      Expected(filtered, years)[k] == YearSalary(years[k], 0.0, 0)
    ensures forall t :: 0 <= t < |filtered| ==>
      Params(filtered)[t] in years && Expected(filtered, years)[FirstIndex(years, Params(filtered)[t])] == filtered[t]
  {
    forall k | 0 <= k < |years|
      ensures Expected(filtered, years)[k].param == years[k]
    {
      ExpectedParam(filtered, years, k);
    }
    forall t | 0 <= t < |filtered|
      ensures Params(filtered)[t] in years
      ensures Expected(filtered, years)[FirstIndex(years, Params(filtered)[t])] == filtered[t]
    {
      ExpectedHolds(filtered, years, t);
    }
  }

  /** Position k of the intended result carries the k-th reference year. */
  lemma ExpectedParam(filtered: seq<YearSalary>, years: seq<string>, k: int)
    requires 0 <= k < |years|
    ensures Expected(filtered, years)[k].param == years[k]
  {
    var present := Params(filtered);
    if years[k] in present {
      var t := FirstIndex(present, years[k]);
      assert present[t] == filtered[t].param;
    }
  }

  /** The t-th filtered bucket sits at its year's position in the intended result. */
  lemma ExpectedHolds(filtered: seq<YearSalary>, years: seq<string>, t: int)
    requires InReferenceOrder(Params(filtered), years) && 0 <= t < |filtered|
    ensures Params(filtered)[t] in years
    ensures Expected(filtered, years)[FirstIndex(years, Params(filtered)[t])] == filtered[t]
  {
    var present := Params(filtered);
    var k := FirstIndex(years, present[t]);
    assert years[k] == present[t];
    assert present[t] !in present[..t] by {
      forall u | 0 <= u < t
        ensures present[u] != present[t]
      {
        assert FirstIndex(years, present[u]) < FirstIndex(years, present[t]);
      }
    }
    FirstIndexUnique(present, present[t], t);
  }

  /** Consecutive year numbers are distinct year strings. */
  lemma ConsecutiveDistinct(years: seq<string>, first: int)
    requires Consecutive(years, first)
    ensures Distinct(years)
  {
    forall i, j | 0 <= i < j < |years|
      ensures years[i] != years[j]
    {
      assert ParseInt(years[i]) == Some(first + i);
      assert ParseInt(years[j]) == Some(first + j);
    }
  }

  /** In the good case the loop produces exactly the intended list: when the
      reference years are consecutive and ascending and the filtered years come
      in the same order, nothing raises and every gap gets its zero bucket. */
  lemma AddMissingYearsGood(filtered: seq<YearSalary>, reference: seq<YearSalary>, first: int)
    requires Consecutive(Params(reference), first)
    requires InReferenceOrder(Params(filtered), Params(reference))
    ensures AddMissingYears(filtered, reference) == Ok(Expected(filtered, Params(reference)))
  {
    var years := Params(reference);
    ConsecutiveDistinct(years, first);
    assert Expected(filtered, years)[..0] + filtered[0..] == filtered;
    assert Invariant(filtered, years, 0, 0, filtered);
    FillFromGood(filtered, years, first, 0, 0, filtered);
  }

  /** The loop invariant: after the first `k` reference years the list is the
      intended prefix followed by the `c` .. end filtered buckets, and those
      are exactly the filtered buckets whose year lies at or after position `k`. */
  predicate Invariant(filtered: seq<YearSalary>, years: seq<string>, k: nat, c: nat, list: seq<YearSalary>)
    requires InReferenceOrder(Params(filtered), years)
  {
    && k <= |years| && c <= |filtered|
    && (forall t :: 0 <= t < c ==> FirstIndex(years, Params(filtered)[t]) < k)
    && (forall t :: c <= t < |filtered| ==> FirstIndex(years, Params(filtered)[t]) >= k)
    && (c < |filtered| ==> FirstIndex(years, Params(filtered)[c]) >= k)
    && list == Expected(filtered, years)[..k] + filtered[c..]
  }

  lemma {:induction false} FillFromGood(filtered: seq<YearSalary>, years: seq<string>, first: int, k: nat, c: nat, list: seq<YearSalary>)
    requires Consecutive(years, first) && Distinct(years)
    requires InReferenceOrder(Params(filtered), years)
    requires Invariant(filtered, years, k, c, list)
    ensures FillFrom(list, years, Params(filtered), k) == Ok(Expected(filtered, years))
    decreases |years| - k
  {
    if k == |years| {
      InvariantAtEnd(filtered, years, c, list);
    } else if years[k] in Params(filtered) {
      PresentStep(filtered, years, k, c, list);
      FillFromGood(filtered, years, first, k + 1, c + 1, list);
    } else {
      var next := MissingStep(filtered, years, first, k, c, list);
      FillFromGood(filtered, years, first, k + 1, c, next);
    }
  }

  lemma InvariantAtEnd(filtered: seq<YearSalary>, years: seq<string>, c: nat, list: seq<YearSalary>)
    requires InReferenceOrder(Params(filtered), years)
    requires Invariant(filtered, years, |years|, c, list)
    ensures list == Expected(filtered, years)
  {
    var present := Params(filtered);
    assert c == |filtered|;
    assert Expected(filtered, years)[..|years|] == Expected(filtered, years);
  }

  /** A reference year the filtered list has: its bucket is the next one, `c`. */
  lemma PresentStep(filtered: seq<YearSalary>, years: seq<string>, k: nat, c: nat, list: seq<YearSalary>)
    requires Distinct(years) && InReferenceOrder(Params(filtered), years)
    requires Invariant(filtered, years, k, c, list)
    requires k < |years| && years[k] in Params(filtered)
    ensures Invariant(filtered, years, k + 1, c + 1, list)
  {
    var present := Params(filtered);
    var e := Expected(filtered, years);
    var t := FirstIndex(present, years[k]);
    FirstIndexUnique(years, years[k], k);
    assert FirstIndex(years, present[t]) == k;
    assert c < |filtered| ==> FirstIndex(years, present[c]) >= k;
    assert t == c;
    assert e[k] == filtered[c];
    assert e[..k + 1] == e[..k] + [filtered[c]];
    assert filtered[c..] == [filtered[c]] + filtered[c + 1..];
    forall u | c + 1 <= u < |filtered|
      ensures FirstIndex(years, present[u]) >= k + 1
    {
      assert FirstIndex(years, present[c]) < FirstIndex(years, present[u]);
    }
  }

  /** A reference year the filtered list lacks: the zero bucket lands at `k`. */
  lemma MissingStep(filtered: seq<YearSalary>, years: seq<string>, first: int, k: nat, c: nat, list: seq<YearSalary>)
    returns (next: seq<YearSalary>)
    requires Consecutive(years, first) && InReferenceOrder(Params(filtered), years)
    requires Invariant(filtered, years, k, c, list)
    requires k < |years| && years[k] !in Params(filtered)
    ensures InsertZero(list, years[k], years[0]) == Ok(next)
    ensures Invariant(filtered, years, k + 1, c, next)
  {
    var e := Expected(filtered, years);
    MissingKeepsLater(filtered, years, k, c);
    InsertZeroGood(list, years, first, k, e[..k], filtered[c..]);
    next := e[..k] + [YearSalary(years[k], 0.0, 0)] + filtered[c..];
    PrefixStep(e, k);
  }

  lemma PrefixStep<T>(s: seq<T>, k: nat)
    requires k < |s|
    ensures s[..k + 1] == s[..k] + [s[k]]
  {
  }

  /** No filtered bucket sits at a missing year's position. */
  lemma MissingKeepsLater(filtered: seq<YearSalary>, years: seq<string>, k: nat, c: nat)
    requires InReferenceOrder(Params(filtered), years)
    requires c <= |filtered| && k < |years| && years[k] !in Params(filtered)
    requires forall t :: c <= t < |filtered| ==> FirstIndex(years, Params(filtered)[t]) >= k
    ensures forall t :: c <= t < |filtered| ==> FirstIndex(years, Params(filtered)[t]) >= k + 1
  {
    var present := Params(filtered);
    forall u | c <= u < |filtered|
      ensures FirstIndex(years, present[u]) >= k + 1
    {
      var i := FirstIndex(years, present[u]);
      assert years[i] == present[u] && present[u] in present;
      assert i != k;
    }
  }

  /** Inserting the zero bucket of the `k`-th consecutive year into a list that
      has exactly `k` entries before the insertion point puts it there, with count zero. */
  lemma InsertZeroGood(list: seq<YearSalary>, years: seq<string>, first: int, k: nat, done: seq<YearSalary>, rest: seq<YearSalary>)
    requires Consecutive(years, first) && k < |years|
    requires |done| == k && list == done + rest
    ensures InsertZero(list, years[k], years[0]) == Ok(done + [YearSalary(years[k], 0.0, 0)] + rest)
  {
    assert ParseInt(years[k]) == Some(first + k);
    assert ParseInt(years[0]) == Some(first);
    var inserted := PyInsert(list, k, ZeroBucket(years[k]));
    assert inserted == done + [ZeroBucket(years[k])] + rest by {
      assert list[..k] == done && list[k..] == rest;
    }
    assert inserted[k := inserted[k].(count := 0)] == done + [YearSalary(years[k], 0.0, 0)] + rest;
  }

  /** An offset above the length or below minus the length plus one:
      `insert` clamps, and the read after it raises IndexError (the model's
      payload is the offset). */
  lemma InsertZeroOutOfRange(list: seq<YearSalary>, y: string, first: string)
    requires ParseYear(y).Ok? && ParseYear(first).Ok?
    requires var off := ParseYear(y).value - ParseYear(first).value;
      off > |list| || off < -(|list| + 1)
    ensures InsertZero(list, y, first) == Err(IndexError(ParseYear(y).value - ParseYear(first).value))
  {
  }

  /** An offset of exactly minus the length plus one: `insert` clamps to the
      front and the read finds the new bucket, so no error is raised and the
      new bucket's count is zeroed. */
  lemma InsertZeroAtFront(list: seq<YearSalary>, y: string, first: string)
    requires ParseYear(y).Ok? && ParseYear(first).Ok?
    requires ParseYear(y).value - ParseYear(first).value == -(|list| + 1)
    ensures InsertZero(list, y, first) == Ok([ZeroBucket(y).(count := 0)] + list)
  {
    var n, z := |list|, ZeroBucket(y);
    var inserted := PyInsert(list, -(n + 1), z);
    assert inserted == [z] + list;
    assert PyIndex(n + 1, -(n + 1)) == Ok(0);
    assert InsertZero(list, y, first) == Ok(inserted[0 := inserted[0].(count := 0)]);
    ZeroFirstCount(z, list);
  }

  lemma ZeroFirstCount(z: YearSalary, list: seq<YearSalary>)
    ensures ([z] + list)[0 := z.(count := 0)] == [z.(count := 0)] + list
  {
    var r, e := ([z] + list)[0 := z.(count := 0)], [z.(count := 0)] + list;
    forall i | 0 <= i < |r|
      ensures r[i] == e[i]
    {
      if i > 0 {
        assert r[i] == list[i - 1];
      }
    }
  }

  /** A negative offset inside the list (from minus the length to -1):
      `insert` counts from the end and puts the zero bucket at `len + off`,
      but the read after it counts from the end of the longer list and lands
      one place further on, so the element after the new bucket is zeroed and
      the new bucket keeps its count of one. */
  lemma InsertZeroNegative(list: seq<YearSalary>, y: string, first: string)
    requires ParseYear(y).Ok? && ParseYear(first).Ok?
    requires var off := ParseYear(y).value - ParseYear(first).value;
      -|list| <= off <= -1
    ensures var p := |list| + (ParseYear(y).value - ParseYear(first).value);
      0 <= p < |list| &&
      InsertZero(list, y, first) ==
        Ok(list[..p] + [ZeroBucket(y), list[p].(count := 0)] + list[p + 1..])
  {
    var n, z := |list|, ZeroBucket(y);
    var off := ParseYear(y).value - ParseYear(first).value;
    var p := n + off;
    var inserted := PyInsert(list, off, z);
    assert inserted == list[..p] + [z] + list[p..];
    assert PyIndex(n + 1, off) == Ok(p + 1);
    assert InsertZero(list, y, first) == Ok(inserted[p + 1 := inserted[p + 1].(count := 0)]);
    ZeroAfterInserted(list, p, z);
  }

  lemma ZeroAfterInserted(list: seq<YearSalary>, p: nat, z: YearSalary)
    requires p < |list|
    ensures var inserted := list[..p] + [z] + list[p..];
      inserted[p + 1 := inserted[p + 1].(count := 0)] == list[..p] + [z, list[p].(count := 0)] + list[p + 1..]
  {
    var inserted := list[..p] + [z] + list[p..];
    var r, e := inserted[p + 1 := inserted[p + 1].(count := 0)], list[..p] + [z, list[p].(count := 0)] + list[p + 1..];
    forall i | 0 <= i < |r|
      ensures r[i] == e[i]
    {
      if i > p + 1 {
        assert r[i] == list[i - 1];
      }
    }
    assert |r| == |e|;
  }

  /** An offset of -1 inserts the zero bucket in front of the last element and
      then wipes the count of that last element, not of the inserted bucket. */
  lemma InsertZeroAtMinusOne(list: seq<YearSalary>, y: string, first: string)
    requires ParseYear(y).Ok? && ParseYear(first).Ok?
    requires ParseYear(y).value - ParseYear(first).value == -1 && |list| > 0
    ensures InsertZero(list, y, first) ==
      Ok(list[..|list| - 1] + [ZeroBucket(y), list[|list| - 1].(count := 0)])
  {
    var n := |list|;
    var inserted := PyInsert(list, -1, ZeroBucket(y));
    assert inserted == list[..n - 1] + [ZeroBucket(y)] + list[n - 1..];
    assert list[n - 1..] == [list[n - 1]];
    assert PyIndex(n + 1, -1) == Ok(n);
    assert InsertZero(list, y, first) == Ok(inserted[n := inserted[n].(count := 0)]);
    assert inserted[n := inserted[n].(count := 0)] == list[..n - 1] + [ZeroBucket(y), list[n - 1].(count := 0)];
  }

  /** A gap in the reference years (2005, then 2010, say) makes the offset run
      past the end of the list: `insert` clamps, but the indexing after it
      raises IndexError naming the offset. */
  lemma AddMissingYearsPastEnd(f: YearSalary, a: YearSalary, b: YearSalary, y0: int, y1: int)
    requires f.param == a.param && ParseInt(a.param) == Some(y0) && ParseInt(b.param) == Some(y1)
    requires y1 - y0 > 1
    ensures AddMissingYears([f], [a, b]) == Err(IndexError(y1 - y0))
  {
    var years, present := Params([a, b]), Params([f]);
    assert years == [a.param, b.param] && present == [a.param];
    assert b.param !in present;
    InsertZeroOutOfRange([f], b.param, a.param);
    assert FillFrom([f], years, present, 1) == Err(IndexError(y1 - y0));
  }

  /** Reference years out of order (2006, then 2005, say) give a negative
      offset: the zero bucket is inserted in front and keeps its count of
      one, while the count that is wiped is that of the profession's own
      bucket. */
  lemma AddMissingYearsNegativeOffset(f: YearSalary, a: YearSalary, b: YearSalary, y0: int)
    requires f.param == a.param && ParseInt(a.param) == Some(y0) && ParseInt(b.param) == Some(y0 - 1)
    ensures AddMissingYears([f], [a, b]) == Ok([YearSalary(b.param, 0.0, 1), f.(count := 0)])
  {
    var years, present := Params([a, b]), Params([f]);
    assert years == [a.param, b.param] && present == [a.param];
    assert b.param !in present;
    InsertZeroAtMinusOne([f], b.param, a.param);
    var r := [YearSalary(b.param, 0.0, 1), f.(count := 0)];
    assert [f][..0] + [ZeroBucket(b.param), f.(count := 0)] == r;
    assert FillFrom(r, years, present, 2) == Ok(r);
    assert FillFrom([f], years, present, 1) == Ok(r);
  }

  /** A profession with no vacancies and reference years that descend by one
      (2006, then 2005, say) is reported with a count of one: the first zero
      bucket is zeroed again, and the second keeps its count. */
  lemma AddMissingYearsPhantomCount(a: YearSalary, b: YearSalary, y0: int)
    requires ParseInt(a.param) == Some(y0) && ParseInt(b.param) == Some(y0 - 1)
    ensures AddMissingYears([], [a, b]) == Ok([YearSalary(b.param, 0.0, 1), YearSalary(a.param, 0.0, 0)])
  {
    var years, present := Params([a, b]), Params([]);
    assert years == [a.param, b.param] && present == [];
    var first := [ZeroBucket(a.param).(count := 0)];
    var z := ZeroBucket(a.param);
    var empty: seq<YearSalary> := [];
    assert ParseYear(a.param) == Ok(y0);
    assert PyInsert(empty, 0, z) == [z];
    assert PyIndex(1, 0) == Ok(0);
    assert [z][0 := z.(count := 0)] == first;
    assert InsertZero(empty, a.param, a.param) == Ok(first);
    InsertZeroAtMinusOne(first, b.param, a.param);
    var r := [YearSalary(b.param, 0.0, 1), YearSalary(a.param, 0.0, 0)];
    assert first[..0] + [ZeroBucket(b.param), first[0].(count := 0)] == r;
    assert FillFrom(r, years, present, 2) == Ok(r);
    assert FillFrom(first, years, present, 1) == Ok(r);
  }
}

=== FILE: numbers.dfy ===
/** Python's numeric conversions used by the statistics: `int()` on a float
    (truncation toward zero) and `int()` on a string (the year keys). */
module Numbers {
  import opened Results
  import opened Text

  /** `int(x)` for a float `x`: truncation toward zero, not floor. */
  function Trunc(x: real): (n: int)
    ensures 0.0 <= x ==> n as real <= x < n as real + 1.0
    ensures x < 0.0 ==> n as real - 1.0 < x <= n as real
  {
    if x >= 0.0 then x.Floor else -((-x).Floor)
  }

  /** Truncation and floor part ways on negative non-integers. */
  lemma TruncExamples()
    ensures Trunc(150.5) == 150 && Trunc(-2.5) == -2 && (-2.5).Floor == -3
  {
  }

  predicate IsDigit(c: char) {
    '0' <= c <= '9'
  }

  /** The characters `int()` skips around a numeral: the six ASCII whitespace
      characters, and the non-ASCII characters `str.isspace()` accepts (which
      `int()` first turns into a space). The ASCII separators U+001C..U+001F are
      whitespace to `str.split()` but not to `int()`. */
  predicate IsIntSpace(c: char) {
    || c == ' ' || '\t' <= c <= '\r'
    || (c as int >= 0x7F && IsSpace(c))
  }

  /** `s.lstrip()` with `int()`'s whitespace */
  function StripStart(s: string): (r: string)
    ensures |r| <= |s|
    ensures |r| > 0 ==> !IsIntSpace(r[0])
    ensures |s| > 0 && !IsIntSpace(s[0]) ==> r == s
  {
    if |s| == 0 || !IsIntSpace(s[0]) then s else StripStart(s[1..])
  }

  /** `s.rstrip()` with `int()`'s whitespace */
  function StripEnd(s: string): (r: string)
    ensures |r| <= |s| && r == s[..|r|]
    ensures |r| > 0 ==> !IsIntSpace(r[|r| - 1])
    ensures |s| > 0 && !IsIntSpace(s[|s| - 1]) ==> r == s
  {
    if |s| == 0 || !IsIntSpace(s[|s| - 1]) then s else StripEnd(s[..|s| - 1])
  }

  /** `s.strip()` with `int()`'s whitespace */
  function Strip(s: string): (r: string)
    ensures |r| > 0 ==> !IsIntSpace(r[0]) && !IsIntSpace(r[|r| - 1])
    ensures |s| > 0 && !IsIntSpace(s[0]) && !IsIntSpace(s[|s| - 1]) ==> r == s
  {
    StripEnd(StripStart(s))
  }

  /** The base-10 digit part `int()` accepts: ASCII digits, with single
      underscores allowed between two digits. */
  predicate IsDigitString(t: string) {
    && |t| > 0 && IsDigit(t[0]) && IsDigit(t[|t| - 1])
    && (forall i :: 0 <= i < |t| ==> IsDigit(t[i]) || t[i] == '_')
    && (forall i :: 0 <= i < |t| - 1 ==> !DoubleUnderscore(t, i))
  }

  predicate DoubleUnderscore(t: string, i: int)
    requires 0 <= i < |t| - 1
  {
    t[i] == '_' && t[i + 1] == '_'
  }

  /** The value of a digit string, underscores ignored. */
  function DigitsValue(t: string): nat
    requires forall i :: 0 <= i < |t| ==> IsDigit(t[i]) || t[i] == '_'
    decreases |t|
  {
    if |t| == 0 then 0
    else
      var p := DigitsValue(t[..|t| - 1]);
      var c := t[|t| - 1];
      if c == '_' then p else 10 * p + DigitValue(c)
  }

  function DigitValue(c: char): (d: nat)
    requires IsDigit(c) || c == '_'
    ensures d < 10
  {
    if c == '_' then 0 else c as int - '0' as int
  }

  /** The unsigned part of `int(s)`. */
  function ParseUnsigned(t: string): Option<nat> {
    if IsDigitString(t) then Some(DigitsValue(t)) else None
  }

  /** `int(s)` for a string `s`; None where Python raises ValueError. Surrounding
      whitespace and one leading sign are allowed. */
  function ParseInt(s: string): Option<int> {
    var t := Strip(s);
    if |t| > 0 && (t[0] == '+' || t[0] == '-') then
      var v :- ParseUnsigned(t[1..]);
      Some(if t[0] == '-' then -(v as int) else v)
    else ParseUnsigned(t)
  }

  /** `str(n)` for a non-negative integer. */
  function ToDecimal(n: nat): (s: string)
    ensures |s| > 0 && forall i :: 0 <= i < |s| ==> IsDigit(s[i])
  {
    var d := ('0' as int + n % 10) as char;
    if n < 10 then [d] else ToDecimal(n / 10) + [d]
  }

  lemma {:induction false} DigitsValueOfDecimal(n: nat)
    ensures DigitsValue(ToDecimal(n)) == n
  {
    var s := ToDecimal(n);
    if n >= 10 {
      DigitsValueOfDecimal(n / 10);
      assert s[..|s| - 1] == ToDecimal(n / 10);
    }
  }

  /** `int(str(n)) == n` and `int("-" + str(n)) == -n`. */
  lemma ParseIntOfDecimal(n: nat)
    ensures ParseInt(ToDecimal(n)) == Some(n)
    ensures ParseInt("-" + ToDecimal(n)) == Some(-(n as int))
  {
    ParseIntOfPositiveDecimal(n);
    ParseIntOfNegativeDecimal(n);
  }

  lemma ParseIntOfPositiveDecimal(n: nat)
    ensures ParseInt(ToDecimal(n)) == Some(n)
  {
    DigitsValueOfDecimal(n);
    ParseIntOfDigits(ToDecimal(n));
  }

  lemma ParseIntOfNegativeDecimal(n: nat)
    ensures ParseInt("-" + ToDecimal(n)) == Some(-(n as int))
  {
    DigitsValueOfDecimal(n);
    ParseIntOfNegative(ToDecimal(n));
  }

  predicate AllDigits(s: string) {
    |s| > 0 && forall i :: 0 <= i < |s| ==> IsDigit(s[i])
  }

  lemma AllDigitsIsDigitString(s: string)
    requires AllDigits(s)
    ensures IsDigitString(s)
  {
  }

  lemma StripOfDigits(s: string)
    requires AllDigits(s)
    ensures Strip(s) == s
  {
    assert IsDigit(s[0]) && IsDigit(s[|s| - 1]);
  }

  lemma StripOfSigned(s: string)
    requires AllDigits(s)
    ensures Strip("-" + s) == "-" + s
  {
    var m := "-" + s;
    assert m[|m| - 1] == s[|s| - 1];
    assert IsDigit(s[|s| - 1]);
  }

  lemma ParseIntUnsigned(s: string)
    requires Strip(s) == s && |s| > 0 && s[0] != '+' && s[0] != '-'
    ensures ParseInt(s) == ParseUnsigned(s)
  {
  }

  lemma ParseIntSigned(s: string)
    requires Strip(s) == s && |s| > 0 && (s[0] == '+' || s[0] == '-')
    ensures ParseUnsigned(s[1..]).None? ==> ParseInt(s).None?
    ensures ParseUnsigned(s[1..]).Some? ==>
      ParseInt(s) == Some(if s[0] == '-' then -(ParseUnsigned(s[1..]).value as int) else ParseUnsigned(s[1..]).value)
  {
  }

  lemma ParseIntOfDigits(s: string)
    requires AllDigits(s)
    ensures ParseInt(s) == Some(DigitsValue(s))
  {
    AllDigitsIsDigitString(s);
    StripOfDigits(s);
    assert IsDigit(s[0]);
    ParseIntUnsigned(s);
  }

  lemma ParseIntOfNegative(s: string)
    requires AllDigits(s)
    ensures ParseInt("-" + s) == Some(-(DigitsValue(s) as int))
  {
    var m := "-" + s;
    assert m[1..] == s;
    AllDigitsIsDigitString(s);
    StripOfSigned(s);
    ParseIntSigned(m);
  }

  lemma ParseIntExamples()
    ensures ParseInt("2007") == Some(2007)
  {
    YearDecimal();
    ParseIntOfDecimal(2007);
  }

  /** An information separator in front of a year is not skipped: `int()`
      raises ValueError although `str.split()` would treat it as whitespace. */
  lemma ParseIntOfSeparatorPrefix(s: string)
    requires AllDigits(s)
    ensures IsSpace('\U{1C}') && !IsIntSpace('\U{1C}')
    ensures ParseInt("\U{1C}" + s).None?
  {
    var m := "\U{1C}" + s;
    assert m[|m| - 1] == s[|s| - 1];
    assert IsDigit(s[|s| - 1]);
    assert Strip(m) == m;
  }

  /** A non-ASCII space, such as U+00A0, around a numeral is skipped. */
  lemma ParseIntOfNoBreakSpace(s: string)
    requires AllDigits(s)
    ensures ParseInt("\U{A0}" + s) == Some(DigitsValue(s))
  {
    var m := "\U{A0}" + s;
    assert m[1..] == s;
    assert StripStart(m) == StripStart(s) == s;
    StripOfDigits(s);
    ParseIntOfDigits(s);
  }

  lemma YearDecimal()
    ensures ToDecimal(2007) == "2007"
  {
  }
}

=== FILE: ordered_dict.dfy ===
/** Python's insertion-ordered `dict`, made explicit as an association list.
    Writing an existing key keeps its position and replaces its value; a new
    key goes last. The statistics pipeline relies on this order: the years of
    its result dicts are read back positionally. */
module OrderedDict {
  import opened Results
  import opened Seqs

  type Dict<K, V> = seq<(K, V)>

  function Keys<K, V>(d: Dict<K, V>): seq<K> {
    seq(|d|, i requires 0 <= i < |d| => d[i].0)
  }

  /** `d[k]`, or None where Python raises KeyError. */
  function Get<K(==), V>(d: Dict<K, V>, k: K): Option<V> {
    if k in Keys(d) then Some(d[FirstIndex(Keys(d), k)].1) else None
  }

  /** `d[k] = v` */
  function Set<K(==,!new), V>(d: Dict<K, V>, k: K, v: V): (r: Dict<K, V>)
    requires Distinct(Keys(d))
    ensures Distinct(Keys(r))
    ensures Keys(r) == if k in Keys(d) then Keys(d) else Keys(d) + [k]
    ensures Get(r, k) == Some(v)
    ensures forall k' :: k' != k ==> Get(r, k') == Get(d, k')
  {
    if k in Keys(d) then
      SetExisting(d, k, v);
      d[FirstIndex(Keys(d), k) := (k, v)]
    else
      SetNew(d, k, v);
      d + [(k, v)]
  }

  /** Writing an existing key replaces its pair in place. */
  lemma SetExisting<K(!new), V>(d: Dict<K, V>, k: K, v: V)
    requires Distinct(Keys(d)) && k in Keys(d)
    ensures var r := d[FirstIndex(Keys(d), k) := (k, v)];
      && Keys(r) == Keys(d)
      && Get(r, k) == Some(v)
      && forall k' :: k' != k ==> Get(r, k') == Get(d, k')
  {
    var i := FirstIndex(Keys(d), k);
    var r := d[i := (k, v)];
    assert Keys(r) == Keys(d);
  }

  /** Writing a new key appends its pair. */
  lemma SetNew<K(!new), V>(d: Dict<K, V>, k: K, v: V)
    requires Distinct(Keys(d)) && k !in Keys(d)
    ensures var r := d + [(k, v)];
      && Distinct(Keys(r))
      && Keys(r) == Keys(d) + [k]
      && Get(r, k) == Some(v)
      && forall k' :: k' != k ==> Get(r, k') == Get(d, k')
  {
    var r := d + [(k, v)];
    KeysAppend(d, (k, v));
    FirstIndexAfter(Keys(d), [k], k);
    forall k' | k' in Keys(d)
      ensures FirstIndex(Keys(r), k') == FirstIndex(Keys(d), k')
    {
      FirstIndexPrefix(Keys(d), [k], k');
    }
  }

  /** `d.update(ps)`, which is also how a dict comprehension over `ps` is
      built: each pair is written in turn with `Set`. */
  function Update<K(==,!new), V>(d: Dict<K, V>, ps: seq<(K, V)>): (r: Dict<K, V>)
    requires Distinct(Keys(d))
    ensures Distinct(Keys(r))
    decreases |ps|
  {
    if |ps| == 0 then d
    else Set(Update(d, ps[..|ps| - 1]), ps[|ps| - 1].0, ps[|ps| - 1].1)
  }

  /** `{k: v for k, v in ps}` */
  function FromPairs<K(==,!new), V>(ps: seq<(K, V)>): (r: Dict<K, V>)
    ensures Distinct(Keys(r))
  {
    Update([], ps)
  }

  /** `zip(ks, vs)` */
  function Zip<K, V>(ks: seq<K>, vs: seq<V>): (ps: seq<(K, V)>)
    ensures |ps| == if |ks| < |vs| then |ks| else |vs|
    ensures forall i :: 0 <= i < |ps| ==> ps[i] == (ks[i], vs[i])
  {
    var n := if |ks| < |vs| then |ks| else |vs|;
    seq(n, i requires 0 <= i < n => (ks[i], vs[i]))
  }

  lemma KeysAppend<K, V>(p: Dict<K, V>, x: (K, V))
    ensures Keys(p + [x]) == Keys(p) + [x.0]
  {
  }

  /** The keys of an updated dict are the old keys followed by the new ones, in first-write order. */
  lemma {:induction false} UpdateKeys<K(!new), V>(d: Dict<K, V>, ps: seq<(K, V)>)
    requires Distinct(Keys(d))
    ensures Keys(Update(d, ps)) == Dedup(Keys(d) + Keys(ps))
    decreases |ps|
  {
    if |ps| == 0 {
      assert Keys(d) + Keys(ps) == Keys(d);
      DedupOfDistinct(Keys(d));
    } else {
      var p, x := ps[..|ps| - 1], ps[|ps| - 1];
      UpdateKeys(d, p);
      var pre := Keys(d) + Keys(p);
      SplitLast(ps);
      KeysAppend(p, x);
      var all := Keys(d) + Keys(ps);
      assert all == pre + [x.0];
      assert all[..|all| - 1] == pre;
      assert Dedup(all) == if x.0 in Dedup(pre) then Dedup(pre) else Dedup(pre) + [x.0];
      assert Update(d, ps) == Set(Update(d, p), x.0, x.1);
    }
  }

  /** After `d.update(ps)`, a key holds the value of its last pair in `ps`, or its old value if `ps` never writes it. */
  lemma {:induction false} UpdateGet<K(!new), V>(d: Dict<K, V>, ps: seq<(K, V)>, k: K)
    requires Distinct(Keys(d))
    ensures k in Keys(ps) ==> Get(Update(d, ps), k) == Some(ps[LastIndex(Keys(ps), k)].1)
    ensures k !in Keys(ps) ==> Get(Update(d, ps), k) == Get(d, k)
    decreases |ps|
  {
    if |ps| > 0 {
      UpdateGet(d, ps[..|ps| - 1], k);
      UpdateGetLast(d, ps, k);
    }
  }

  /** The step of `UpdateGet` for the last pair of `ps`. */
  lemma UpdateGetLast<K(!new), V>(d: Dict<K, V>, ps: seq<(K, V)>, k: K)
    requires Distinct(Keys(d)) && |ps| > 0
    requires var p := ps[..|ps| - 1];
      && (k in Keys(p) ==> Get(Update(d, p), k) == Some(p[LastIndex(Keys(p), k)].1))
      && (k !in Keys(p) ==> Get(Update(d, p), k) == Get(d, k))
    ensures k in Keys(ps) ==> Get(Update(d, ps), k) == Some(ps[LastIndex(Keys(ps), k)].1)
    ensures k !in Keys(ps) ==> Get(Update(d, ps), k) == Get(d, k)
  {
    var p, last := ps[..|ps| - 1], ps[|ps| - 1];
    SplitLast(ps);
    UpdateGetStep(d, p, last, k);
  }

  lemma UpdateGetStep<K(!new), V>(d: Dict<K, V>, p: seq<(K, V)>, last: (K, V), k: K)
    requires Distinct(Keys(d))
    requires k in Keys(p) ==> Get(Update(d, p), k) == Some(p[LastIndex(Keys(p), k)].1)
    requires k !in Keys(p) ==> Get(Update(d, p), k) == Get(d, k)
    ensures k in Keys(p + [last]) ==> Get(Update(d, p + [last]), k) == Some((p + [last])[LastIndex(Keys(p + [last]), k)].1)
    ensures k !in Keys(p + [last]) ==> Get(Update(d, p + [last]), k) == Get(d, k)
  {
    var ps := p + [last];
    assert ps[..|ps| - 1] == p;
    var u := Update(d, p);
    assert Update(d, ps) == Set(u, last.0, last.1);
    KeysAppend(p, last);
    if k == last.0 {
      LastIndexUnique(Keys(p) + [last.0], k, |p|);
    } else {
      assert Get(Update(d, ps), k) == Get(u, k);
      if k in Keys(p) {
        UpdateGetOlder(d, p, last, k);
      }
    }
  }

  lemma UpdateGetOlder<K(!new), V>(d: Dict<K, V>, p: seq<(K, V)>, last: (K, V), k: K)
    requires Distinct(Keys(d))
    requires k != last.0 && k in Keys(p)
    ensures k in Keys(p + [last])
    ensures (p + [last])[LastIndex(Keys(p + [last]), k)] == p[LastIndex(Keys(p), k)]
  {
    KeysAppend(p, last);
    LastIndexOlder(Keys(p), last.0, k);
    var i := LastIndex(Keys(p), k);
    assert |Keys(p)| == |p|;
    assert (p + [last])[i] == p[i];
  }

  lemma LastIndexOlder<K>(ks: seq<K>, x: K, k: K)
    requires k != x && k in ks
    ensures LastIndex(ks + [x], k) == LastIndex(ks, k)
  {
    var i := LastIndex(ks, k);
    var s := ks + [x];
    assert s[i + 1..] == ks[i + 1..] + [x];
    assert k !in s[i + 1..];
    LastIndexUnique(s, k, i);
  }

  /** Updating with pairs whose keys are all new, and distinct among
      themselves, appends the pairs. */
  lemma {:induction false} UpdateFresh<K(!new), V>(d: Dict<K, V>, ps: seq<(K, V)>)
    requires Distinct(Keys(d)) && Distinct(Keys(d + ps))
    ensures Update(d, ps) == d + ps
    decreases |ps|
  {
    if |ps| == 0 {
      assert d + ps == d;
    } else {
      var p, x := ps[..|ps| - 1], ps[|ps| - 1];
      var all, pre := Keys(d + ps), Keys(d + p);
      assert d + ps == (d + p) + [x];
      assert all == pre + [x.0];
      assert pre == all[..|all| - 1];
      UpdateFresh(d, p);
      forall i | 0 <= i < |pre|
        ensures pre[i] != x.0
      {
        assert all[i] == pre[i] && all[|all| - 1] == x.0;
      }
      assert Update(d, ps) == Set(d + p, x.0, x.1);
    }
  }

  /** Building a dict from pairs whose keys are already distinct reproduces the pairs. */
  lemma FromPairsOfDistinct<K(!new), V>(ps: seq<(K, V)>)
    requires Distinct(Keys(ps))
    ensures FromPairs(ps) == ps
  {
    var empty: Dict<K, V> := [];
    assert empty + ps == ps;
    UpdateFresh(empty, ps);
  }
}

=== FILE: results.dfy ===
/** Failure-compatible wrappers for the pipeline. Every Python exception the
    statistics code can raise aborts the whole run, so an operation either
    produces its value or the first exception raised, and `:-` propagates it. */
module Results {

  datatype Option<+T> = None | Some(value: T) {
    predicate IsFailure() {
      None?
    }

    function PropagateFailure<U>(): Option<U>
      requires None?
    {
      None
    }

    function Extract(): T
      requires Some?
    {
      value
    }
  }

  /** The exceptions the modelled code raises. */
  datatype Error =
    | KeyError(key: string)     // a dict lookup of a missing header or currency code
    | ValueError(text: string)  // a string that int() or float() rejects, or a record key the CSV writer rejects
    | IndexError(index: int)    // a list index out of range

  // The payloads are the model's own record of the cause: Python's IndexError
  // message, for one, does not name the index.

  datatype Result<+T> = Ok(value: T) | Err(error: Error) {
    predicate IsFailure() {
      Err?
    }

    function PropagateFailure<U>(): Result<U>
      requires Err?
    {
      Err(error)
    }

    function Extract(): T
      requires Ok?
    {
      value
    }
  }
}

=== FILE: salary.dfy ===
/** One vacancy's salary range and its conversion to roubles. */
module Salaries {
  import opened Results
  import opened Numbers

  /** `salary_from` and `salary_to` are already parsed; see `MakeSalary`. */
  datatype Salary = Salary(salaryFrom: real, salaryTo: real, currency: string)

  /** Roubles per unit of each currency the conversion knows. */
  const CurrencyToRub: map<string, real> := map[
    "AZN" := 35.68, "BYR" := 23.91, "EUR" := 59.90, "GEL" := 21.74, "KGS" := 0.76,
    "KZT" := 0.13, "RUR" := 1.0, "UAH" := 1.64, "USD" := 60.66, "UZS" := 0.0055]

  /** `average_salary`: the sum of the bounds is truncated toward zero first and
      only then halved, so the result is a whole or half unit. */
  function Average(s: Salary): (a: real)
    ensures (2.0 * a).Floor as real == 2.0 * a
    ensures var sum := s.salaryFrom + s.salaryTo;
      if 0.0 <= sum then 2.0 * a <= sum < 2.0 * a + 1.0 else 2.0 * a - 1.0 < sum <= 2.0 * a
  {
    Trunc(s.salaryFrom + s.salaryTo) as real / 2.0
  }

  /** `convert_to_rubles`: the average times the currency's rate; a currency
      outside the table is a KeyError. */
  function ConvertToRubles(s: Salary): (r: Result<real>)
    ensures r.Ok? <==> s.currency in CurrencyToRub
    ensures r.Ok? ==> r.value == Average(s) * CurrencyToRub[s.currency]
    ensures r.Err? ==> r.error == KeyError(s.currency)
  {
    if s.currency in CurrencyToRub then Ok(Average(s) * CurrencyToRub[s.currency])
    else Err(KeyError(s.currency))
  }

  /** For a range with non-negative bounds the converted value lies within half
      a unit (times the rate) below the exact midpoint. */
  lemma ConvertBounds(s: Salary)
    requires 0.0 <= s.salaryFrom && 0.0 <= s.salaryTo && s.currency in CurrencyToRub
    ensures var rate := CurrencyToRub[s.currency];
      var mid := (s.salaryFrom + s.salaryTo) / 2.0;
      && 0.0 <= ConvertToRubles(s).value
      && ConvertToRubles(s).value <= mid * rate
      && (mid - 0.5) * rate < ConvertToRubles(s).value
  {
    var rate := CurrencyToRub[s.currency];
    assert 0.0 < rate;
    var a := Average(s);
    var mid := (s.salaryFrom + s.salaryTo) / 2.0;
    assert a <= mid && mid - 0.5 < a;
    assert a * rate <= mid * rate;
    assert (mid - 0.5) * rate < a * rate;
  }

  /** The conversions the source documents, and the half-unit average. */
  lemma ConvertExamples()
    ensures ConvertToRubles(Salary(100.0, 200.0, "RUR")) == Ok(150.0)
    ensures ConvertToRubles(Salary(100.0, 200.0, "AZN")) == Ok(5352.0)
    ensures ConvertToRubles(Salary(1000.0, 2000.0, "USD")) == Ok(90990.0)
    ensures ConvertToRubles(Salary(100.0, 201.0, "RUR")) == Ok(150.5)
    ensures ConvertToRubles(Salary(100.4, 200.9, "RUR")) == Ok(150.5)
    ensures ConvertToRubles(Salary(100.0, 200.0, "GBP")) == Err(KeyError("GBP"))
    ensures ConvertToRubles(Salary(75000.0, 95000.0, "RUR")) == Ok(85000.0)
  {
  }

  /** Python's `float()` on a field; `parseFloat` stands for it, and None is
      the ValueError it raises. */
  function ParseReal(parseFloat: string -> Option<real>, text: string): (r: Result<real>)
    ensures r.Ok? <==> parseFloat(text).Some?
    ensures r.Ok? ==> r.value == parseFloat(text).value
    ensures r.Err? ==> r.error == ValueError(text)
  {
    match parseFloat(text)
    case Some(x) => Ok(x)
    case None => Err(ValueError(text))
  }

  /** `Salary(salary_from, salary_to, salary_currency)` built from text fields:
      the lower bound is parsed first, so its ValueError wins. */
  function MakeSalary(parseFloat: string -> Option<real>, from: string, to: string, currency: string): (r: Result<Salary>)
    ensures r.Ok? <==> parseFloat(from).Some? && parseFloat(to).Some?
    ensures r.Ok? ==> r.value == Salary(parseFloat(from).value, parseFloat(to).value, currency)
    ensures parseFloat(from).None? ==> r == Err(ValueError(from))
    ensures parseFloat(from).Some? && parseFloat(to).None? ==> r == Err(ValueError(to))
  {
    var f :- ParseReal(parseFloat, from);
    var t :- ParseReal(parseFloat, to);
    Ok(Salary(f, t, currency))
  }
}

=== FILE: seqs.dfy ===
/** Sequence facts shared by the model: distinctness, first and last
    occurrence, and Dedup, the order-of-first-appearance deduplication that an
    insertion-ordered Python dict performs on the keys written into it. */
module Seqs {

  predicate Distinct<T(==)>(s: seq<T>) {
    forall i, j :: 0 <= i < j < |s| ==> s[i] != s[j]
  }

  /** The position of the first occurrence of `x` in `s`. */
  function FirstIndex<T(==)>(s: seq<T>, x: T): (i: nat)
    requires x in s
    ensures i < |s| && s[i] == x && x !in s[..i]
  {
    if s[0] == x then 0
    else
      var k := FirstIndex(s[1..], x);
      assert s[..k + 1] == [s[0]] + s[1..][..k];
      k + 1
  }

  /** The position of the last occurrence of `x` in `s`. */
  function LastIndex<T(==)>(s: seq<T>, x: T): (i: nat)
    requires x in s
    ensures i < |s| && s[i] == x && x !in s[i + 1..]
  {
    if s[|s| - 1] == x then |s| - 1
    else
      var k := LastIndex(s[..|s| - 1], x);
      assert s[k + 1..] == s[..|s| - 1][k + 1..] + [s[|s| - 1]];
      k
  }

  lemma FirstIndexUnique<T>(s: seq<T>, x: T, i: nat)
    requires i < |s| && s[i] == x && x !in s[..i]
    ensures FirstIndex(s, x) == i
  {
  }

  lemma LastIndexUnique<T>(s: seq<T>, x: T, i: nat)
    requires i < |s| && s[i] == x && x !in s[i + 1..]
    ensures LastIndex(s, x) == i
  {
  }

  /** In a sequence without repeats an element's first and last positions coincide. */
  lemma FirstIndexIsLast<T>(s: seq<T>, x: T)
    requires Distinct(s) && x in s
    ensures FirstIndex(s, x) == LastIndex(s, x)
  {
    var i := FirstIndex(s, x);
    assert x !in s[i + 1..] by {
      forall j | i + 1 <= j < |s|
        ensures s[j] != x
      {
        assert s[j] != s[i];
      }
    }
    LastIndexUnique(s, x, i);
  }

  lemma FirstIndexPrefix<T>(s: seq<T>, t: seq<T>, x: T)
    requires x in s
    ensures x in s + t && FirstIndex(s + t, x) == FirstIndex(s, x)
  {
    var i := FirstIndex(s, x);
    assert (s + t)[i] == x;
    assert (s + t)[..i] == s[..i];
    FirstIndexUnique(s + t, x, i);
  }

  lemma FirstIndexAfter<T>(s: seq<T>, t: seq<T>, x: T)
    requires x !in s && x in t
    ensures x in s + t && FirstIndex(s + t, x) == |s| + FirstIndex(t, x)
  {
    var i := FirstIndex(t, x);
    assert (s + t)[|s| + i] == x;
    assert (s + t)[..|s| + i] == s + t[..i];
    FirstIndexUnique(s + t, x, |s| + i);
  }

  /** The distinct elements of `s`, each once, in the order of their first appearance. */
  function Dedup<T(==)>(s: seq<T>): seq<T>
    decreases |s|
  {
    if |s| == 0 then []
    else
      var d := Dedup(s[..|s| - 1]);
      if s[|s| - 1] in d then d else d + [s[|s| - 1]]
  }

  /** `keys` holds each element of `s` exactly once, ordered by where it first occurs in `s`. */
  ghost predicate FirstAppearanceOrder<T>(keys: seq<T>, s: seq<T>) {
    && Distinct(keys)
    && (forall i :: 0 <= i < |keys| ==> keys[i] in s)
    && (forall i :: 0 <= i < |s| ==> s[i] in keys)
    && (forall i, j :: 0 <= i < j < |keys| ==> FirstIndex(s, keys[i]) < FirstIndex(s, keys[j]))
  }

  lemma {:induction false} DedupFirstAppearance<T>(s: seq<T>)
    ensures FirstAppearanceOrder(Dedup(s), s)
  {
    if |s| > 0 {
      var p, x := s[..|s| - 1], s[|s| - 1];
      assert s == p + [x];
      DedupFirstAppearance(p);
      if x in Dedup(p) {
        DedupStepSeen(p, x);
      } else {
        DedupStepNew(p, x);
      }
    }
  }

  lemma DedupStepSeen<T>(p: seq<T>, x: T)
    requires FirstAppearanceOrder(Dedup(p), p) && x in Dedup(p)
    ensures FirstAppearanceOrder(Dedup(p + [x]), p + [x])
  {
    var s, d := p + [x], Dedup(p);
    assert s[..|s| - 1] == p;
    assert Dedup(s) == d;
    forall y | y in p
      ensures FirstIndex(s, y) == FirstIndex(p, y)
    {
      FirstIndexPrefix(p, [x], y);
    }
    assert forall i :: 0 <= i < |d| ==> d[i] in p;
  }

  lemma DedupStepNew<T>(p: seq<T>, x: T)
    requires FirstAppearanceOrder(Dedup(p), p) && x !in Dedup(p)
    ensures FirstAppearanceOrder(Dedup(p + [x]), p + [x])
  {
    var s, d := p + [x], Dedup(p);
    assert s[..|s| - 1] == p;
    assert Dedup(s) == d + [x];
    assert x !in p;
    AppendDistinct(d, x);
    AppendMembers(d, p, x);
    AppendOrder(d, p, x);
  }

  /** Appending a new element to both sides keeps each one's elements inside the other. */
  lemma AppendMembers<T>(d: seq<T>, p: seq<T>, x: T)
    requires forall i :: 0 <= i < |d| ==> d[i] in p
    requires forall i :: 0 <= i < |p| ==> p[i] in d
    ensures forall i :: 0 <= i < |d + [x]| ==> (d + [x])[i] in p + [x]
    ensures forall i :: 0 <= i < |p + [x]| ==> (p + [x])[i] in d + [x]
  {
    var r, s := d + [x], p + [x];
    forall i | 0 <= i < |r|
      ensures r[i] in s
    {
      if i < |d| {
        assert r[i] == d[i];
      }
    }
    forall i | 0 <= i < |s|
      ensures s[i] in r
    {
      if i < |p| {
        assert s[i] == p[i];
      }
    }
  }

  /** An element that first appears at the end comes after all the others. */
  lemma AppendOrder<T>(d: seq<T>, p: seq<T>, x: T)
    requires x !in p
    requires forall i :: 0 <= i < |d| ==> d[i] in p
    requires forall i, j :: 0 <= i < j < |d| ==> FirstIndex(p, d[i]) < FirstIndex(p, d[j])
    ensures forall i, j :: 0 <= i < j < |d + [x]| ==>
      (d + [x])[i] in p + [x] && (d + [x])[j] in p + [x] &&
      FirstIndex(p + [x], (d + [x])[i]) < FirstIndex(p + [x], (d + [x])[j])
  {
    var r, s := d + [x], p + [x];
    FirstIndexAfter(p, [x], x);
    forall i, j | 0 <= i < j < |r|
      ensures r[i] in s && r[j] in s && FirstIndex(s, r[i]) < FirstIndex(s, r[j])
    {
      assert r[i] == d[i];
      FirstIndexPrefix(p, [x], d[i]);
      if j < |d| {
        assert r[j] == d[j];
        FirstIndexPrefix(p, [x], d[j]);
      }
    }
  }

  lemma DedupSingle<T>(x: T)
    ensures Dedup([x]) == [x]
  {
    assert [x][..0] == [];
  }

  /** A non-empty sequence is its front followed by its last element. */
  lemma SplitLast<T>(s: seq<T>)
    requires |s| > 0
    ensures s == s[..|s| - 1] + [s[|s| - 1]]
  {
  }

  lemma AppendDistinct<T>(d: seq<T>, x: T)
    requires Distinct(d) && x !in d
    ensures Distinct(d + [x])
  {
    var r := d + [x];
    forall i, j | 0 <= i < j < |r|
      ensures r[i] != r[j]
    {
      assert r[i] == d[i];
    }
  }

  lemma DedupMembership<T>(s: seq<T>, x: T)
    ensures x in Dedup(s) <==> x in s
  {
    DedupFirstAppearance(s);
  }

  lemma {:induction false} DedupOfDistinct<T>(s: seq<T>)
    requires Distinct(s)
    ensures Dedup(s) == s
  {
    if |s| > 0 {
      var p := s[..|s| - 1];
      DedupOfDistinct(p);
      assert s[|s| - 1] !in p;
      assert s == p + [s[|s| - 1]];
    }
  }

  lemma DedupDistinct<T>(s: seq<T>)
    ensures Distinct(Dedup(s))
  {
    DedupFirstAppearance(s);
  }

  /** Deduplicating a prefix first does not change the overall deduplication. */
  lemma {:induction false} DedupAppend<T>(a: seq<T>, b: seq<T>)
    ensures Dedup(Dedup(a) + b) == Dedup(a + b)
  {
    if |b| == 0 {
      assert Dedup(a) + b == Dedup(a);
      assert a + b == a;
      DedupDistinct(a);
      DedupOfDistinct(Dedup(a));
    } else {
      var b', x := b[..|b| - 1], b[|b| - 1];
      DedupAppend(a, b');
      assert (Dedup(a) + b)[..|Dedup(a) + b| - 1] == Dedup(a) + b';
      assert (a + b)[..|a + b| - 1] == a + b';
    }
  }

  /** A non-empty sequence of one repeated value deduplicates to that value alone. */
  lemma {:induction false} DedupConstant<T>(s: seq<T>, y: T)
    requires |s| > 0 && forall i :: 0 <= i < |s| ==> s[i] == y
    ensures Dedup(s) == [y]
  {
    if |s| > 1 {
      DedupConstant(s[..|s| - 1], y);
    }
  }
}

=== FILE: split_by_year.dfy ===
/** Splitting a vacancy file into one file per year. The valid rows, cleaned
    as for the statistics, are cut into runs of equal year key (the first four
    characters of the last column); each run is handed to the writer with its
    year, and a run is handed over when the key changes and once more at the
    end. The writer's file for a year is overwritten by a later run of the
    same year. */
module SplitByYear {
  import opened Results
  import opened Seqs
  import opened OrderedDict
  import opened Text
  import opened DataSet
  import opened MissingYears

  /** One call of the writer: the year in the file name and the rows, each
      already cleaned, that go into it. */
  datatype Emission = Emission(year: string, rows: seq<Row>)

  /** `vacancy[-1][:4]`: an empty row raises IndexError. */
  function YearKey(row: Row): (r: Result<string>)
    ensures r.Ok? <==> |row| > 0
    ensures r.Ok? ==> r.value == Head(row[|row| - 1], 4)
    ensures r.Err? ==> r.error == IndexError(-1)
  {
    var i :- PyIndex(|row|, -1);
    Ok(Head(row[i], 4))
  }

  /** The row has a last column and its year key is `year`. */
  predicate KeyedBy(row: Row, year: string) {
    |row| > 0 && Head(row[|row| - 1], 4) == year
  }

  /** The loop over the remaining valid rows, with the current year and the
      rows collected for it so far; the final write comes at the end. */
  function ProcessFrom(rows: seq<Row>, curYear: string, cur: seq<Row>): Result<seq<Emission>>
    decreases |rows|
  {
    if |rows| == 0 then Ok([Emission(curYear, cur)])
    else
      var row := rows[0];
      var key :- YearKey(row);
      if key != curYear then
        var rest :- ProcessFrom(rows[1..], key, [row]);
        Ok((if |cur| != 0 then [Emission(curYear, cur)] else []) + rest)
      else
        ProcessFrom(rows[1..], curYear, cur + [row])
  }

  /** `__csv_process`: the year starts as "0" with nothing collected. */
  function CsvProcess(headers: Row, rows: seq<Row>): Result<seq<Emission>> {
    ProcessFrom(ValidCleanedRows(headers, rows), "0", [])
  }

  /** The rows of all emissions, in order. */
  function Flatten(es: seq<Emission>): seq<Row>
    decreases |es|
  {
    if |es| == 0 then [] else es[0].rows + Flatten(es[1..])
  }

  /** The first of `ks` that is not among `headers`, if any. */
  function FirstOutside(ks: seq<string>, headers: Row): (r: Option<string>)
    ensures r.None? <==> forall j :: 0 <= j < |ks| ==> ks[j] in headers
    ensures r.Some? ==> r.value in ks && r.value !in headers
    decreases |ks|
  {
    if |ks| == 0 then None
    else if ks[0] !in headers then Some(ks[0])
    else
      var r := FirstOutside(ks[1..], headers);
      assert forall j :: 1 <= j < |ks| ==> ks[j] == ks[1..][j - 1];
      r
  }

  /** `d.get(h, "")`: the writer's default for a header the record lacks. */
  function FieldOr(d: Dict<string, string>, h: string): string {
    match Get(d, h)
    case Some(v) => v
    case None => ""
  }

  /** The line `DictWriter(fieldnames=headers)` writes for a record, with its
      defaults: a key that is not a header raises ValueError (the key carried
      is the first such key in the record's order; Python's message lists them
      all), and a header the record lacks is written as "". */
  function WrittenRow(headers: Row, d: Dict<string, string>): (r: Result<Row>)
    ensures r.Ok? <==> forall j :: 0 <= j < |d| ==> d[j].0 in headers
    ensures r.Err? ==> r.error.ValueError? && r.error.text in Keys(d) && r.error.text !in headers
    ensures r.Ok? ==> |r.value| == |headers|
    ensures r.Ok? ==> forall i :: 0 <= i < |headers| ==>
      if headers[i] in Keys(d) then Get(d, headers[i]) == Some(r.value[i]) else r.value[i] == ""
  {
    assert forall j :: 0 <= j < |d| ==> Keys(d)[j] == d[j].0;
    match FirstOutside(Keys(d), headers)
    case Some(k) => Err(ValueError(k))
    case None => Ok(seq(|headers|, i requires 0 <= i < |headers| => FieldOr(d, headers[i])))
  }

  /** The writer's two defaults: a missing header is written as "", and a
      key that is not a header raises ValueError. */
  lemma WrittenRowDefaults(h: string, k: string, v: string)
    ensures WrittenRow([h], []) == Ok([""])
    ensures WrittenRow([], [(k, v)]) == Err(ValueError(k))
  {
    var d: Dict<string, string> := [(k, v)];
    assert Keys(d) == [k];
    var empty: Dict<string, string> := [];
    assert Keys(empty) == [] && FieldOr(empty, h) == "";
    assert WrittenRow([h], empty).value == [""];
  }

  /** A record is written back as the row it came from, except that with a
      repeated header every copy takes the value of the last such column. */
  lemma WrittenRowOfRecord(headers: Row, row: Row)
    requires |row| == |headers|
    ensures WrittenRow(headers, RowDict(headers, row)).Ok?
    ensures forall i :: 0 <= i < |headers| ==>
      WrittenRow(headers, RowDict(headers, row)).value[i] == row[LastIndex(headers, headers[i])]
  {
    var d := RowDict(headers, row);
    RecordKeysAreHeaders(headers, row);
    forall i | 0 <= i < |headers|
      ensures headers[i] in Keys(d) && Get(d, headers[i]) == Some(row[LastIndex(headers, headers[i])])
    {
      RecordField(headers, row, i);
    }
  }

  /** Every key of a row's record is one of the headers. */
  lemma RecordKeysAreHeaders(headers: Row, row: Row)
    requires |row| == |headers|
    ensures var d := RowDict(headers, row); forall j :: 0 <= j < |d| ==> d[j].0 in headers
  {
    var d := RowDict(headers, row);
    forall j | 0 <= j < |d|
      ensures d[j].0 in headers
    {
      RowDictGet(headers, row, d[j].0);
      assert d[j].0 == Keys(d)[j];
      DedupMembership(headers, d[j].0);
    }
  }

  /** With distinct headers the written line is the row itself. */
  lemma WrittenRowOfDistinct(headers: Row, row: Row)
    requires |row| == |headers| && Distinct(headers)
    ensures WrittenRow(headers, RowDict(headers, row)) == Ok(row)
  {
    WrittenRowOfRecord(headers, row);
    LastValuesOfDistinct(headers, row, WrittenRow(headers, RowDict(headers, row)).value);
  }

  /** With distinct headers, taking each header's last column is taking its own column. */
  lemma LastValuesOfDistinct(headers: Row, row: Row, r: Row)
    requires Distinct(headers) && |r| == |headers| == |row|
    requires forall i :: 0 <= i < |headers| ==> r[i] == row[LastIndex(headers, headers[i])]
    ensures r == row
  {
    LastIndexesOfDistinct(headers);
    forall i | 0 <= i < |row|
      ensures r[i] == row[i]
    {
    }
  }

  lemma RecordField(headers: Row, row: Row, i: int)
    requires |row| == |headers| && 0 <= i < |headers|
    ensures headers[i] in Keys(RowDict(headers, row))
    ensures Get(RowDict(headers, row), headers[i]) == Some(row[LastIndex(headers, headers[i])])
  {
    RowDictGet(headers, row, headers[i]);
    DedupMembership(headers, headers[i]);
  }

  lemma LastIndexesOfDistinct(headers: Row)
    requires Distinct(headers)
    ensures forall i :: 0 <= i < |headers| ==> LastIndex(headers, headers[i]) == i
  {
    forall i | 0 <= i < |headers|
      ensures LastIndex(headers, headers[i]) == i
    {
      FirstIndexIsLast(headers, headers[i]);
      FirstIndexUnique(headers, headers[i], i);
    }
  }

  // ---------------------------------------------------------------------------
  // What the loop produces

  /** The loop fails exactly when some remaining row is empty. */
  lemma {:induction false} ProcessFromOk(rows: seq<Row>, curYear: string, cur: seq<Row>)
    ensures ProcessFrom(rows, curYear, cur).Ok? <==> forall i :: 0 <= i < |rows| ==> |rows[i]| > 0
    ensures ProcessFrom(rows, curYear, cur).Err? ==> ProcessFrom(rows, curYear, cur).error == IndexError(-1)
    decreases |rows|
  {
    if |rows| > 0 {
      var key := YearKey(rows[0]);
      if key.Ok? {
        var y := if key.value != curYear then key.value else curYear;
        var c := if key.value != curYear then [rows[0]] else cur + [rows[0]];
        ProcessFromOk(rows[1..], y, c);
        assert forall i :: 1 <= i < |rows| ==> rows[i] == rows[1..][i - 1];
      }
    }
  }

  /** No row is lost or reordered: the emitted rows are the collected ones
      followed by the remaining ones. */
  lemma {:induction false} ProcessFromFlatten(rows: seq<Row>, curYear: string, cur: seq<Row>)
    requires ProcessFrom(rows, curYear, cur).Ok?
    ensures Flatten(ProcessFrom(rows, curYear, cur).value) == cur + rows
    decreases |rows|
  {
    var es := ProcessFrom(rows, curYear, cur).value;
    if |rows| == 0 {
      assert es == [Emission(curYear, cur)];
      assert Flatten(es[1..]) == [];
    } else {
      var row := rows[0];
      var key := YearKey(row).value;
      assert rows == [row] + rows[1..];
      if key != curYear {
        var rest := ProcessFrom(rows[1..], key, [row]).value;
        ProcessFromFlatten(rows[1..], key, [row]);
        if |cur| != 0 {
          assert es == [Emission(curYear, cur)] + rest;
          assert es[1..] == rest;
        } else {
          assert es == rest;
        }
      } else {
        ProcessFromFlatten(rows[1..], curYear, cur + [row]);
      }
    }
  }

  /** Every emission is homogeneous: all its rows have its year as their key. */
  predicate Homogeneous(es: seq<Emission>) {
    forall i, j :: 0 <= i < |es| && 0 <= j < |es[i].rows| ==> KeyedBy(es[i].rows[j], es[i].year)
  }

  lemma {:induction false} ProcessFromHomogeneous(rows: seq<Row>, curYear: string, cur: seq<Row>)
    requires ProcessFrom(rows, curYear, cur).Ok?
    requires forall j :: 0 <= j < |cur| ==> KeyedBy(cur[j], curYear)
    ensures Homogeneous(ProcessFrom(rows, curYear, cur).value)
    decreases |rows|
  {
    var es := ProcessFrom(rows, curYear, cur).value;
    if |rows| > 0 {
      var row := rows[0];
      var key := YearKey(row).value;
      if key != curYear {
        ProcessFromHomogeneous(rows[1..], key, [row]);
        var rest := ProcessFrom(rows[1..], key, [row]).value;
        if |cur| != 0 {
          assert es == [Emission(curYear, cur)] + rest;
          forall i, j | 1 <= i < |es| && 0 <= j < |es[i].rows|
            ensures KeyedBy(es[i].rows[j], es[i].year)
          {
            assert es[i] == rest[i - 1];
          }
        }
      } else {
        ProcessFromHomogeneous(rows[1..], curYear, cur + [row]);
      }
    }
  }

  /** Two consecutive emissions never share a year. */
  predicate YearsChange(es: seq<Emission>) {
    forall i :: 0 <= i < |es| - 1 ==> NextYearDiffers(es, i)
  }

  predicate NextYearDiffers(es: seq<Emission>, i: int)
    requires 0 <= i < |es| - 1
  {
    es[i].year != es[i + 1].year
  }

  lemma {:induction false} ProcessFromYearsChange(rows: seq<Row>, curYear: string, cur: seq<Row>)
    requires ProcessFrom(rows, curYear, cur).Ok?
    ensures |ProcessFrom(rows, curYear, cur).value| > 0
    ensures |cur| > 0 ==> ProcessFrom(rows, curYear, cur).value[0].year == curYear
    ensures YearsChange(ProcessFrom(rows, curYear, cur).value)
    decreases |rows|
  {
    var es := ProcessFrom(rows, curYear, cur).value;
    if |rows| > 0 {
      var row := rows[0];
      var key := YearKey(row).value;
      if key != curYear {
        ProcessFromYearsChange(rows[1..], key, [row]);
        var rest := ProcessFrom(rows[1..], key, [row]).value;
        if |cur| != 0 {
          assert es == [Emission(curYear, cur)] + rest;
          assert NextYearDiffers(es, 0);
          forall i | 1 <= i < |es| - 1
            ensures NextYearDiffers(es, i)
          {
            assert NextYearDiffers(rest, i - 1);
            assert es[i] == rest[i - 1] && es[i + 1] == rest[i];
          }
        } else {
          assert es == rest;
        }
      } else {
        ProcessFromYearsChange(rows[1..], curYear, cur + [row]);
      }
    }
  }

  /** Nothing empty is written, except the single file of a run without
      rows at all. */
  lemma {:induction false} ProcessFromNonEmpty(rows: seq<Row>, curYear: string, cur: seq<Row>)
    requires ProcessFrom(rows, curYear, cur).Ok?
    ensures |cur| + |rows| == 0 ==> ProcessFrom(rows, curYear, cur).value == [Emission(curYear, [])]
    ensures |cur| + |rows| > 0 ==>
      forall i :: 0 <= i < |ProcessFrom(rows, curYear, cur).value| ==> |ProcessFrom(rows, curYear, cur).value[i].rows| > 0
    decreases |rows|
  {
    var es := ProcessFrom(rows, curYear, cur).value;
    if |rows| > 0 {
      var row := rows[0];
      var key := YearKey(row).value;
      if key != curYear {
        ProcessFromNonEmpty(rows[1..], key, [row]);
        var rest := ProcessFrom(rows[1..], key, [row]).value;
        if |cur| != 0 {
          assert es == [Emission(curYear, cur)] + rest;
          assert forall i :: 1 <= i < |es| ==> es[i] == rest[i - 1];
        }
      } else {
        ProcessFromNonEmpty(rows[1..], curYear, cur + [row]);
      }
    }
  }

  /** Every valid row has one value per header. */
  lemma {:induction false} ValidCleanedRowsWidth(headers: Row, rows: seq<Row>)
    ensures forall i :: 0 <= i < |ValidCleanedRows(headers, rows)| ==> |ValidCleanedRows(headers, rows)[i]| == |headers|
    decreases |rows|
  {
    if |rows| > 0 {
      ValidCleanedRowsWidth(headers, rows[..|rows| - 1]);
    }
  }

  /** The splitter fails only on a file without headers that still has an
      (empty) valid row; otherwise the valid rows, cleaned and in order, are
      cut into non-empty homogeneous runs whose years change from one run to
      the next, and a file without valid rows gives one empty run of year "0". */
  lemma CsvProcessSpec(headers: Row, rows: seq<Row>)
    ensures var r := CsvProcess(headers, rows);
      && (r.Ok? <==> |headers| > 0 || ValidCleanedRows(headers, rows) == [])
      && (r.Err? ==> r.error == IndexError(-1))
    ensures var r := CsvProcess(headers, rows);
      r.Ok? ==>
        && Flatten(r.value) == ValidCleanedRows(headers, rows)
        && Homogeneous(r.value)
        && YearsChange(r.value)
        && (ValidCleanedRows(headers, rows) == [] ==> r.value == [Emission("0", [])])
        && (ValidCleanedRows(headers, rows) != [] ==> forall i :: 0 <= i < |r.value| ==> |r.value[i].rows| > 0)
  {
    var valid := ValidCleanedRows(headers, rows);
    ValidCleanedRowsWidth(headers, rows);
    ProcessFromOk(valid, "0", []);
    if |headers| == 0 && valid != [] {
      assert |valid[0]| == 0;
    }
    if CsvProcess(headers, rows).Ok? {
      ProcessFromFlatten(valid, "0", []);
      ProcessFromHomogeneous(valid, "0", []);
      ProcessFromYearsChange(valid, "0", []);
      ProcessFromNonEmpty(valid, "0", []);
    }
  }

  // ---------------------------------------------------------------------------
  // The files on disk

  /** The directory after the writes: one file per year, a later write of a
      year replacing the earlier file. */
  function Store(es: seq<Emission>): map<string, seq<Row>>
    decreases |es|
  {
    if |es| == 0 then map[] else Store(es[..|es| - 1])[es[|es| - 1].year := es[|es| - 1].rows]
  }

  /** There is a file for each emitted year, holding the rows of the last
      emission of that year. */
  lemma {:induction false} StoreSpec(es: seq<Emission>)
    ensures forall y :: y in Store(es) <==> exists i :: 0 <= i < |es| && es[i].year == y
    ensures forall i :: 0 <= i < |es| && LastOfYear(es, i) ==> Store(es)[es[i].year] == es[i].rows
    decreases |es|
  {
    if |es| > 0 {
      var p := es[..|es| - 1];
      StoreSpec(p);
      forall i | 0 <= i < |es| - 1 && LastOfYear(es, i)
        ensures LastOfYear(p, i)
      {
      }
      forall y | y in Store(es)
        ensures exists i :: 0 <= i < |es| && es[i].year == y
      {
        if y != es[|es| - 1].year {
          assert y in Store(p);
          var i :| 0 <= i < |p| && p[i].year == y;
          assert es[i].year == y;
        }
      }
    }
  }

  /** Emission `i` is the last one of its year. */
  predicate LastOfYear(es: seq<Emission>, i: int)
    requires 0 <= i < |es|
  {
    forall j :: i < j < |es| ==> es[j].year != es[i].year
  }

  /** When every year is emitted once, every emitted row ends up on disk. */
  lemma StoreOfDistinctYears(es: seq<Emission>)
    requires forall i, j :: 0 <= i < j < |es| ==> es[i].year != es[j].year
    ensures forall i :: 0 <= i < |es| ==> es[i].year in Store(es) && Store(es)[es[i].year] == es[i].rows
  {
    StoreSpec(es);
  }

  /** A year that comes back after another year (2007, 2008, 2007, say)
      overwrites its first file: the rows of the first run are not on disk. */
  lemma StoreLosesEarlierRun(r1: Row, r2: Row, r3: Row, y: string, z: string)
    requires KeyedBy(r1, y) && KeyedBy(r2, z) && KeyedBy(r3, y) && y != z && y != "0"
    ensures ProcessFrom([r1, r2, r3], "0", []) == Ok([Emission(y, [r1]), Emission(z, [r2]), Emission(y, [r3])])
    ensures Store(ProcessFrom([r1, r2, r3], "0", []).value) == map[y := [r3], z := [r2]]
  {
    ComebackRuns(r1, r2, r3, y, z);
    ComebackStore(Emission(y, [r1]), Emission(z, [r2]), Emission(y, [r3]));
  }

  lemma ComebackRuns(r1: Row, r2: Row, r3: Row, y: string, z: string)
    requires KeyedBy(r1, y) && KeyedBy(r2, z) && KeyedBy(r3, y) && y != z && y != "0"
    ensures ProcessFrom([r1, r2, r3], "0", []) == Ok([Emission(y, [r1]), Emission(z, [r2]), Emission(y, [r3])])
  {
    var e1, e2, e3 := Emission(y, [r1]), Emission(z, [r2]), Emission(y, [r3]);
    assert YearKey(r1) == Ok(y) && YearKey(r2) == Ok(z) && YearKey(r3) == Ok(y);
    assert [r3][1..] == [] && [r2, r3][1..] == [r3] && [r1, r2, r3][1..] == [r2, r3];
    assert ProcessFrom([], y, [r3]) == Ok([e3]);
    assert ProcessFrom([r3], z, [r2]) == Ok([e2] + [e3]);
    assert [e2] + [e3] == [e2, e3] && [e1] + [e2, e3] == [e1, e2, e3] && [] + [e1, e2, e3] == [e1, e2, e3];
    assert ProcessFrom([r2, r3], y, [r1]) == Ok([e1] + [e2, e3]);
    assert ProcessFrom([r1, r2, r3], "0", []) == Ok([] + [e1, e2, e3]);
  }

  lemma ComebackStore(e1: Emission, e2: Emission, e3: Emission)
    requires e1.year == e3.year != e2.year
    ensures Store([e1, e2, e3]) == map[e1.year := e3.rows, e2.year := e2.rows]
  {
    var es := [e1, e2, e3];
    assert es[..2] == [e1, e2] && [e1, e2][..1] == [e1] && [e1][..0] == [];
    assert Store([e1]) == map[e1.year := e1.rows];
    assert Store([e1, e2]) == map[e1.year := e1.rows, e2.year := e2.rows];
  }

  // ---------------------------------------------------------------------------
  // Input grouped by year

  /** The year key of each row; an empty row, which the loop rejects, has none. */
  function RowKeys(rows: seq<Row>): (ks: seq<string>)
    ensures |ks| == |rows|
    ensures forall i :: 0 <= i < |rows| && |rows[i]| > 0 ==> KeyedBy(rows[i], ks[i])
  {
    seq(|rows|, i requires 0 <= i < |rows| => if |rows[i]| == 0 then "" else Head(rows[i][|rows[i]| - 1], 4))
  }

  /** No key comes back once another key has followed it. */
  predicate Grouped(ks: seq<string>) {
    forall i, j, k :: 0 <= i < j < k < |ks| && ks[i] == ks[k] ==> ks[j] == ks[i]
  }

  predicate YearsDistinct(es: seq<Emission>) {
    forall i, j :: 0 <= i < j < |es| ==> es[i].year != es[j].year
  }

  lemma GroupedTail(ks: seq<string>)
    requires Grouped(ks) && |ks| > 0
    ensures Grouped(ks[1..])
  {
    forall a, b, c | 0 <= a < b < c < |ks| - 1 && ks[1..][a] == ks[1..][c]
      ensures ks[1..][b] == ks[1..][a]
    {
      assert ks[a + 1] == ks[c + 1];
    }
  }

  /** Dropping a repeat of the first key keeps the keys grouped. */
  lemma GroupedDropRepeat(ks: seq<string>)
    requires Grouped(ks) && |ks| >= 2 && ks[0] == ks[1]
    ensures Grouped([ks[0]] + ks[2..])
  {
    var ks' := [ks[0]] + ks[2..];
    forall a, b, c | 0 <= a < b < c < |ks'| && ks'[a] == ks'[c]
      ensures ks'[b] == ks'[a]
    {
      var a' := if a == 0 then 0 else a + 1;
      assert ks'[a] == ks[a'] && ks'[b] == ks[b + 1] && ks'[c] == ks[c + 1];
    }
  }

  /** Once the key has changed, the first key does not come back. */
  lemma GroupedLeft(ks: seq<string>)
    requires Grouped(ks) && |ks| >= 2 && ks[0] != ks[1]
    ensures ks[0] !in ks[1..]
  {
    forall m | 1 <= m < |ks|
      ensures ks[m] != ks[0]
    {
      if m > 1 {
        assert ks[1] != ks[0];
      }
    }
  }

  /** A run of a year that does not come back, in front of runs of the
      later keys, keeps the years distinct and drawn from the keys. */
  lemma PrependYear(e: Emission, rest: seq<Emission>, ks: seq<string>)
    requires |ks| > 0 && e.year == ks[0] && ks[0] !in ks[1..]
    requires YearsDistinct(rest)
    requires forall i :: 0 <= i < |rest| ==> rest[i].year in ks[1..]
    ensures YearsDistinct([e] + rest)
    ensures forall i :: 0 <= i < |[e] + rest| ==> ([e] + rest)[i].year in ks
  {
    var es := [e] + rest;
    forall i, j | 0 <= i < j < |es|
      ensures es[i].year != es[j].year
    {
      assert es[j] == rest[j - 1];
      if i > 0 {
        assert es[i] == rest[i - 1];
      }
    }
    forall i | 0 <= i < |es|
      ensures es[i].year in ks
    {
      if i > 0 {
        assert es[i] == rest[i - 1];
      }
    }
  }

  /** The loop with a non-empty current run over input grouped by year emits
      each year once, and only the current year or keys of the remaining rows. */
  lemma {:induction false} ProcessFromGrouped(rows: seq<Row>, curYear: string, cur: seq<Row>)
    requires ProcessFrom(rows, curYear, cur).Ok? && |cur| > 0
    requires Grouped([curYear] + RowKeys(rows))
    ensures YearsDistinct(ProcessFrom(rows, curYear, cur).value)
    ensures forall i :: 0 <= i < |ProcessFrom(rows, curYear, cur).value| ==>
      ProcessFrom(rows, curYear, cur).value[i].year in [curYear] + RowKeys(rows)
    decreases |rows|
  {
    var es := ProcessFrom(rows, curYear, cur).value;
    var ks := [curYear] + RowKeys(rows);
    if |rows| > 0 {
      var row := rows[0];
      var key := YearKey(row).value;
      assert RowKeys(rows) == [key] + RowKeys(rows[1..]);
      assert ks[1..] == [key] + RowKeys(rows[1..]);
      if key != curYear {
        GroupedTail(ks);
        GroupedLeft(ks);
        ProcessFromGrouped(rows[1..], key, [row]);
        var rest := ProcessFrom(rows[1..], key, [row]).value;
        assert es == [Emission(curYear, cur)] + rest;
        PrependYear(Emission(curYear, cur), rest, ks);
      } else {
        GroupedDropRepeat(ks);
        assert [ks[0]] + ks[2..] == [curYear] + RowKeys(rows[1..]);
        ProcessFromGrouped(rows[1..], curYear, cur + [row]);
      }
    }
  }

  /** A file whose valid rows are grouped by year, as a file sorted by
      publication date is, gets every valid row onto disk: each year is
      written once, with all its rows. */
  lemma CsvProcessGrouped(headers: Row, rows: seq<Row>)
    requires CsvProcess(headers, rows).Ok?
    requires Grouped(RowKeys(ValidCleanedRows(headers, rows)))
    ensures var es := CsvProcess(headers, rows).value;
      forall i :: 0 <= i < |es| ==> es[i].year in Store(es) && Store(es)[es[i].year] == es[i].rows
  {
    var valid := ValidCleanedRows(headers, rows);
    var es := CsvProcess(headers, rows).value;
    if |valid| > 0 {
      var key := YearKey(valid[0]).value;
      assert RowKeys(valid) == [key] + RowKeys(valid[1..]);
      var rest := ProcessFrom(valid[1..], key, [valid[0]]);
      if key != "0" {
        assert rest.Ok?;
        assert es == [] + rest.value;
        assert [] + rest.value == rest.value;
      } else {
        assert [] + [valid[0]] == [valid[0]];
        assert ProcessFrom(valid, "0", []) == ProcessFrom(valid[1..], "0", [] + [valid[0]]);
      }
      ProcessFromGrouped(valid[1..], key, [valid[0]]);
    }
    StoreOfDistinctYears(es);
  }
}

=== FILE: statistic.dfy ===
/** The statistics of one file and of a whole directory: the per-year average
    salary and vacancy count, over all vacancies and over those of one
    profession, as insertion-ordered dicts keyed by the year as an integer;
    and the merge of the per-file results in submission order. */
module Statistic {
  import opened Results
  import opened Seqs
  import opened OrderedDict
  import opened Numbers
  import opened Salaries
  import opened DataSet
  import opened YearSalaries
  import opened MissingYears

  // ---------------------------------------------------------------------------
  // From buckets to dicts

  /** A bucket's average salary: zero for an empty bucket, otherwise the
      quotient truncated toward zero. */
  function AverageSalary(b: YearSalary): (a: int)
    ensures b.count == 0 ==> a == 0
    ensures b.count > 0 && 0.0 <= b.salary ==>
      a as real <= b.salary / b.count as real < a as real + 1.0
    ensures b.count > 0 && b.salary < 0.0 ==>
      a as real - 1.0 < b.salary / b.count as real <= a as real
  {
    if b.count == 0 then 0 else Trunc(b.salary / b.count as real)
  }

  /** `[int(s) for s in ss]`: the first text that is not an integer raises. */
  function ParseAll(ss: seq<string>): (r: Result<seq<int>>)
    ensures r.Ok? ==> |r.value| == |ss|
    decreases |ss|
  {
    if |ss| == 0 then Ok([])
    else
      var n :- ParseYear(ss[0]);
      var rest :- ParseAll(ss[1..]);
      Ok([n] + rest)
  }

  /** All texts parse, one integer per text, or else the error names a text
      that is not an integer. */
  lemma ParseAllSpec(ss: seq<string>)
    ensures ParseAll(ss).Ok? <==> forall i :: 0 <= i < |ss| ==> ParseInt(ss[i]).Some?
    ensures ParseAll(ss).Ok? ==>
      && |ParseAll(ss).value| == |ss|
      && forall i :: 0 <= i < |ss| ==> ParseInt(ss[i]) == Some(ParseAll(ss).value[i])
    ensures ParseAll(ss).Err? ==>
      && ParseAll(ss).error.ValueError?
      && ParseAll(ss).error.text in ss
      && ParseInt(ParseAll(ss).error.text).None?
  {
    if ParseAll(ss).Ok? {
      ParseAllValues(ss);
    } else {
      ParseAllError(ss);
    }
  }

  lemma {:induction false} ParseAllValues(ss: seq<string>)
    requires ParseAll(ss).Ok?
    ensures forall i :: 0 <= i < |ss| ==> ParseInt(ss[i]) == Some(ParseAll(ss).value[i])
    decreases |ss|
  {
    if |ss| > 0 {
      ParseAllValues(ss[1..]);
      var v, r := ParseAll(ss).value, ParseAll(ss[1..]).value;
      assert v == [ParseYear(ss[0]).value] + r;
      forall i | 0 <= i < |ss|
        ensures ParseInt(ss[i]) == Some(v[i])
      {
        if i > 0 {
          assert ss[i] == ss[1..][i - 1] && v[i] == r[i - 1];
        }
      }
    }
  }

  lemma {:induction false} ParseAllError(ss: seq<string>)
    requires ParseAll(ss).Err?
    ensures ParseAll(ss).error.ValueError? && ParseAll(ss).error.text in ss
    ensures ParseInt(ParseAll(ss).error.text).None?
    decreases |ss|
  {
    if ParseYear(ss[0]).Ok? {
      ParseAllError(ss[1..]);
      assert ParseAll(ss) == ParseAll(ss[1..]);
      var j :| 0 <= j < |ss[1..]| && ss[1..][j] == ParseAll(ss).error.text;
      assert ss[j + 1] == ss[1..][j];
    }
  }

  function Averages(bs: seq<YearSalary>): seq<int> {
    seq(|bs|, i requires 0 <= i < |bs| => AverageSalary(bs[i]))
  }

  function Counts(bs: seq<YearSalary>): seq<int> {
    seq(|bs|, i requires 0 <= i < |bs| => bs[i].count as int)
  }

  /** `__convert_from_param_salary_to_dict`: year to average salary, and year to count. */
  function ToDicts(bs: seq<YearSalary>): Result<(Dict<int, int>, Dict<int, int>)> {
    var years :- ParseAll(Params(bs));
    Ok((FromPairs(Zip(years, Averages(bs))), FromPairs(Zip(years, Counts(bs)))))
  }

  /** Both dicts have the buckets' years as keys, in bucket order, and a year
      maps to the average and the count of its last bucket; when the years are
      distinct the dicts are the buckets themselves, pair by pair. */
  lemma ToDictsSpec(bs: seq<YearSalary>)
    ensures ToDicts(bs).Ok? <==> forall i :: 0 <= i < |bs| ==> ParseInt(bs[i].param).Some?
    ensures ToDicts(bs).Ok? ==>
      var years := ParseAll(Params(bs)).value;
      var (salaries, counts) := ToDicts(bs).value;
      && Keys(salaries) == Dedup(years) && Keys(counts) == Dedup(years)
      && (forall y :: y in years ==>
            && Get(salaries, y) == Some(AverageSalary(bs[LastIndex(years, y)]))
            && Get(counts, y) == Some(bs[LastIndex(years, y)].count as int))
      && (Distinct(years) ==> salaries == Zip(years, Averages(bs)) && counts == Zip(years, Counts(bs)))
  {
    assert forall i :: 0 <= i < |bs| ==> Params(bs)[i] == bs[i].param;
    ParseAllSpec(Params(bs));
    var r := ParseAll(Params(bs));
    if r.Ok? {
      var years := r.value;
      var (salaries, counts) := ToDicts(bs).value;
      assert salaries == FromPairs(Zip(years, Averages(bs))) && counts == FromPairs(Zip(years, Counts(bs)));
      ZipDictSpec(years, Averages(bs));
      ZipDictSpec(years, Counts(bs));
      forall y | y in years
        ensures && Get(salaries, y) == Some(AverageSalary(bs[LastIndex(years, y)]))
                && Get(counts, y) == Some(bs[LastIndex(years, y)].count as int)
      {
        var i := LastIndex(years, y);
        assert Averages(bs)[i] == AverageSalary(bs[i]) && Counts(bs)[i] == bs[i].count as int;
      }
    }
  }

  /** A dict built from zipped keys and values of equal length. */
  lemma ZipDictSpec(ks: seq<int>, vs: seq<int>)
    requires |ks| == |vs|
    ensures Keys(FromPairs(Zip(ks, vs))) == Dedup(ks)
    ensures forall y :: y in ks ==> Get(FromPairs(Zip(ks, vs)), y) == Some(vs[LastIndex(ks, y)])
    ensures Distinct(ks) ==> FromPairs(Zip(ks, vs)) == Zip(ks, vs)
  {
    ZipDictKeys(ks, vs);
    forall y | y in ks
      ensures Get(FromPairs(Zip(ks, vs)), y) == Some(vs[LastIndex(ks, y)])
    {
      ZipDictGet(ks, vs, y);
    }
    if Distinct(ks) {
      ZipKeys(ks, vs);
      FromPairsOfDistinct(Zip(ks, vs));
    }
  }

  lemma ZipDictKeys(ks: seq<int>, vs: seq<int>)
    requires |ks| == |vs|
    ensures Keys(FromPairs(Zip(ks, vs))) == Dedup(ks)
  {
    ZipKeys(ks, vs);
    var empty: Dict<int, int> := [];
    UpdateKeys(empty, Zip(ks, vs));
    assert Keys(empty) + ks == ks;
  }

  lemma ZipDictGet(ks: seq<int>, vs: seq<int>, y: int)
    requires |ks| == |vs| && y in ks
    ensures Get(FromPairs(Zip(ks, vs)), y) == Some(vs[LastIndex(ks, y)])
  {
    ZipKeys(ks, vs);
    var empty: Dict<int, int> := [];
    UpdateGet(empty, Zip(ks, vs), y);
  }

  lemma ZipKeys(ks: seq<int>, vs: seq<int>)
    requires |ks| == |vs|
    ensures Keys(Zip(ks, vs)) == ks
  {
  }

  // ---------------------------------------------------------------------------
  // One file

  /** Python's `sub in s`. */
  predicate Contains(s: string, sub: string)
    decreases |s|
  {
    |sub| <= |s| && (s[..|sub|] == sub || Contains(s[1..], sub))
  }

  /** `sub` occurs in `s` at offset `i`. */
  predicate OccursAt(s: string, sub: string, i: int) {
    0 <= i && i + |sub| <= |s| && s[i..i + |sub|] == sub
  }

  /** `sub in s` holds exactly when `sub` occurs at some offset of `s`. */
  lemma ContainsSpec(s: string, sub: string)
    ensures Contains(s, sub) <==> exists i :: OccursAt(s, sub, i)
  {
    if Contains(s, sub) {
      OccursOfContains(s, sub);
    }
    if exists i :: OccursAt(s, sub, i) {
      var i :| OccursAt(s, sub, i);
      ContainsOfOccurs(s, sub, i);
    }
  }

  lemma {:induction false} OccursOfContains(s: string, sub: string)
    requires Contains(s, sub)
    ensures exists i :: OccursAt(s, sub, i)
    decreases |s|
  {
    if s[..|sub|] == sub {
      assert OccursAt(s, sub, 0);
    } else {
      OccursOfContains(s[1..], sub);
      var i :| OccursAt(s[1..], sub, i);
      assert s[i + 1..i + 1 + |sub|] == s[1..][i..i + |sub|];
      assert OccursAt(s, sub, i + 1);
    }
  }

  lemma {:induction false} ContainsOfOccurs(s: string, sub: string, i: int)
    requires OccursAt(s, sub, i)
    ensures Contains(s, sub)
    decreases i
  {
    if i > 0 {
      assert s[1..][i - 1..i - 1 + |sub|] == s[i..i + |sub|];
      ContainsOfOccurs(s[1..], sub, i - 1);
    } else {
      assert s[..|sub|] == sub;
    }
  }

  /** `[d for d in data if profession in d.name]` */
  function FilterByProfession(vs: seq<Vacancy>, profession: string): seq<Vacancy>
    decreases |vs|
  {
    if |vs| == 0 then []
    else
      var kept := FilterByProfession(vs[..|vs| - 1], profession);
      var v := vs[|vs| - 1];
      if Contains(v.name, profession) then kept + [v] else kept
  }

  /** The profession filter keeps the order: it distributes over concatenation. */
  lemma {:induction false} FilterByProfessionSpec(a: seq<Vacancy>, b: seq<Vacancy>, profession: string)
    ensures FilterByProfession(a + b, profession) == FilterByProfession(a, profession) + FilterByProfession(b, profession)
    decreases |b|
  {
    if |b| == 0 {
      assert a + b == a;
    } else {
      var b' := b[..|b| - 1];
      FilterByProfessionSpec(a, b', profession);
      assert (a + b)[..|a + b| - 1] == a + b';
      assert (a + b)[|a + b| - 1] == b[|b| - 1];
    }
  }

  /** A single vacancy is kept exactly when its name contains the profession. */
  lemma FilterByProfessionOne(v: Vacancy, profession: string)
    ensures FilterByProfession([v], profession) == if Contains(v.name, profession) then [v] else []
  {
    assert [v][..0] == [];
  }

  /** The rows of one CSV file. */
  datatype CsvFile = CsvFile(headers: Row, rows: seq<Row>)

  /** The four dicts `process_data` returns. */
  datatype FileStats = FileStats(
    salaryByYear: Dict<int, int>,
    countByYear: Dict<int, int>,
    professionSalaryByYear: Dict<int, int>,
    professionCountByYear: Dict<int, int>)

  /** `process_data`: the vacancies of the file; the buckets of all of them;
      the buckets of the profession's, gap-filled against the former; and both
      turned into dicts. The first step that raises ends the file. */
  function ProcessData(parseFloat: string -> Option<real>, profession: string, file: CsvFile): Result<FileStats> {
    var data :- ProcessVacancies(parseFloat, file.headers, file.rows);
    var all :- ConvertToParamSalary(data);
    var ofProfession :- ConvertToParamSalary(FilterByProfession(data, profession));
    var filled :- AddMissingYears(ofProfession, all);
    var (salaries, counts) :- ToDicts(all);
    var (professionSalaries, professionCounts) :- ToDicts(filled);
    Ok(FileStats(salaries, counts, professionSalaries, professionCounts))
  }

  /** The salary and count dicts of a result always share their keys, in order. */
  lemma ProcessDataKeysPaired(parseFloat: string -> Option<real>, profession: string, file: CsvFile)
    ensures var r := ProcessData(parseFloat, profession, file);
      r.Ok? ==>
        && Keys(r.value.salaryByYear) == Keys(r.value.countByYear)
        && Keys(r.value.professionSalaryByYear) == Keys(r.value.professionCountByYear)
  {
    var r := ProcessData(parseFloat, profession, file);
    if r.Ok? {
      var data := ProcessVacancies(parseFloat, file.headers, file.rows).value;
      var all := ConvertToParamSalary(data).value;
      var ofProfession := ConvertToParamSalary(FilterByProfession(data, profession)).value;
      var filled := AddMissingYears(ofProfession, all).value;
      ToDictsSpec(all);
      ToDictsSpec(filled);
    }
  }

  /** All four dicts have the same keys. */
  predicate Aligned(s: FileStats) {
    && Keys(s.countByYear) == Keys(s.salaryByYear)
    && Keys(s.professionSalaryByYear) == Keys(s.salaryByYear)
    && Keys(s.professionCountByYear) == Keys(s.salaryByYear)
  }

  /** A file whose vacancies all carry one year, as the year splitter writes
      them, yields four dicts with that year as their only key, whether or not
      the profession occurs; a file with no vacancies yields four empty dicts. */
  lemma SingleYearFileAligned(parseFloat: string -> Option<real>, profession: string, file: CsvFile, year: string, n: int)
    requires ParseInt(year) == Some(n)
    requires var data := ProcessVacancies(parseFloat, file.headers, file.rows);
      data.Ok? ==> forall i :: 0 <= i < |data.value| ==> data.value[i].year == year
    ensures var r := ProcessData(parseFloat, profession, file);
      r.Ok? ==> Aligned(r.value) && (Keys(r.value.salaryByYear) == [n] || Keys(r.value.salaryByYear) == [])
  {
    var r := ProcessData(parseFloat, profession, file);
    if r.Ok? {
      var data := ProcessVacancies(parseFloat, file.headers, file.rows).value;
      var prof := FilterByProfession(data, profession);
      FilterKeepsYear(data, profession, year);
      SingleYearBuckets(data, year);
      SingleYearBuckets(prof, year);
      var all := ConvertToParamSalary(data).value;
      var ofProfession := ConvertToParamSalary(prof).value;
      SingleYearFilled(ofProfession, all, year, n);
      var filled := AddMissingYears(ofProfession, all).value;
      SingleYearDicts(all, year, n);
      SingleYearDicts(filled, year, n);
    }
  }

  /** The buckets of vacancies of one year: one bucket, or none for no vacancies. */
  lemma SingleYearBuckets(vs: seq<Vacancy>, year: string)
    requires forall i :: 0 <= i < |vs| ==> vs[i].year == year
    requires ConvertToParamSalary(vs).Ok?
    ensures Params(ConvertToParamSalary(vs).value) == if |vs| == 0 then [] else [year]
  {
    ConvertToParamSalarySpec(vs);
    if |vs| > 0 {
      DedupConstant(Years(vs), year);
    } else {
      assert Years(vs) == [];
    }
  }

  /** Gap filling against a single reference year changes no year. */
  lemma SingleYearFilled(ofProfession: seq<YearSalary>, all: seq<YearSalary>, year: string, n: int)
    requires ParseInt(year) == Some(n)
    requires Params(all) == [year] || Params(all) == []
    requires Params(ofProfession) == [] || Params(ofProfession) == Params(all)
    ensures AddMissingYears(ofProfession, all).Ok?
    ensures Params(AddMissingYears(ofProfession, all).value) == Params(all)
  {
    var years := Params(all);
    assert Consecutive(years, n);
    assert InReferenceOrder(Params(ofProfession), years);
    AddMissingYearsGood(ofProfession, all, n);
    ConsecutiveDistinct(years, n);
    ExpectedShape(ofProfession, years);
  }

  /** The profession's vacancies are among the file's, so they share its year. */
  lemma {:induction false} FilterKeepsYear(vs: seq<Vacancy>, profession: string, year: string)
    requires forall i :: 0 <= i < |vs| ==> vs[i].year == year
    ensures forall i :: 0 <= i < |FilterByProfession(vs, profession)| ==> FilterByProfession(vs, profession)[i].year == year
    decreases |vs|
  {
    if |vs| > 0 {
      FilterKeepsYear(vs[..|vs| - 1], profession, year);
    }
  }

  /** Buckets for at most the one year `year` give dicts keyed by that year alone. */
  lemma SingleYearDicts(bs: seq<YearSalary>, year: string, n: int)
    requires ParseInt(year) == Some(n)
    requires Params(bs) == [year] || Params(bs) == []
    ensures ToDicts(bs).Ok?
    ensures Params(bs) == [year] ==> Keys(ToDicts(bs).value.0) == [n] && Keys(ToDicts(bs).value.1) == [n]
    ensures Params(bs) == [] ==> Keys(ToDicts(bs).value.0) == [] && Keys(ToDicts(bs).value.1) == []
  {
    if Params(bs) == [year] {
      OneYearDicts(bs, year, n);
    } else {
      assert |bs| == 0;
      assert ToDicts(bs) == Ok(([], []));
    }
  }

  lemma OneYearDicts(bs: seq<YearSalary>, year: string, n: int)
    requires ParseInt(year) == Some(n) && Params(bs) == [year]
    ensures ToDicts(bs).Ok?
    ensures Keys(ToDicts(bs).value.0) == [n] && Keys(ToDicts(bs).value.1) == [n]
  {
    ToDictsSpec(bs);
    ParseAllSpec(Params(bs));
    var v := ParseAll(Params(bs)).value;
    assert |v| == 1 && v[0] == n;
    assert v == [n];
    DedupSingle(n);
  }

  // ---------------------------------------------------------------------------
  // All files

  /** `value.update(el[i])` over the results in order, from an empty dict. */
  function MergeDicts(ds: seq<Dict<int, int>>): (m: Dict<int, int>)
    ensures Distinct(Keys(m))
    decreases |ds|
  {
    if |ds| == 0 then [] else Update(MergeDicts(ds[..|ds| - 1]), ds[|ds| - 1])
  }

  /** Every key of every dict, in order, repeats included. */
  function AllKeys(ds: seq<Dict<int, int>>): seq<int>
    decreases |ds|
  {
    if |ds| == 0 then [] else AllKeys(ds[..|ds| - 1]) + Keys(ds[|ds| - 1])
  }

  /** The merged keys are the union of the results' keys, each placed where it
      was first introduced. */
  lemma {:induction false} MergeDictsKeys(ds: seq<Dict<int, int>>)
    ensures Keys(MergeDicts(ds)) == Dedup(AllKeys(ds))
    decreases |ds|
  {
    if |ds| > 0 {
      var p := ds[..|ds| - 1];
      MergeDictsKeys(p);
      UpdateKeys(MergeDicts(p), ds[|ds| - 1]);
      DedupAppend(AllKeys(p), Keys(ds[|ds| - 1]));
    }
  }

  /** The last of the dicts that has key `k`, if any. */
  function LastHolder(ds: seq<Dict<int, int>>, k: int): (r: Option<nat>)
    ensures r.Some? ==> r.value < |ds| && k in Keys(ds[r.value])
    ensures r.Some? ==> forall j :: r.value < j < |ds| ==> k !in Keys(ds[j])
    ensures r.None? ==> forall j :: 0 <= j < |ds| ==> k !in Keys(ds[j])
    decreases |ds|
  {
    if |ds| == 0 then None
    else if k in Keys(ds[|ds| - 1]) then Some(|ds| - 1)
    else LastHolder(ds[..|ds| - 1], k)
  }

  /** A merged key holds the value of the last result that has it. */
  lemma {:induction false} MergeDictsGet(ds: seq<Dict<int, int>>, k: int)
    requires forall i :: 0 <= i < |ds| ==> Distinct(Keys(ds[i]))
    ensures LastHolder(ds, k).Some? ==> Get(MergeDicts(ds), k) == Get(ds[LastHolder(ds, k).value], k)
    ensures LastHolder(ds, k).None? ==> Get(MergeDicts(ds), k).None?
    decreases |ds|
  {
    if |ds| > 0 {
      var p, last := ds[..|ds| - 1], ds[|ds| - 1];
      MergeDictsGet(p, k);
      UpdateGet(MergeDicts(p), last, k);
      if k in Keys(last) {
        FirstIndexIsLast(Keys(last), k);
      }
    }
  }

  /** The per-file results in submission order, or the first error among them. */
  function Collect(rs: seq<Result<FileStats>>): (r: Result<seq<FileStats>>)
    ensures r.Ok? <==> forall i :: 0 <= i < |rs| ==> rs[i].Ok?
    ensures r.Ok? ==> |r.value| == |rs| && forall i :: 0 <= i < |rs| ==> rs[i] == Ok(r.value[i])
    decreases |rs|
  {
    if |rs| == 0 then Ok([])
    else
      var done :- Collect(rs[..|rs| - 1]);
      var last :- rs[|rs| - 1];
      Ok(done + [last])
  }

  /** A failure is the error of the first result that failed. */
  lemma {:induction false} CollectFirstError(rs: seq<Result<FileStats>>)
    ensures Collect(rs).Err? ==>
      exists i :: 0 <= i < |rs| && rs[i] == Err(Collect(rs).error) && forall j :: 0 <= j < i ==> rs[j].Ok?
    decreases |rs|
  {
    if |rs| > 0 {
      var p := rs[..|rs| - 1];
      CollectFirstError(p);
      if Collect(p).Err? {
        assert Collect(rs) == Err(Collect(p).error);
        var i :| 0 <= i < |p| && p[i] == Err(Collect(p).error) && forall j :: 0 <= j < i ==> p[j].Ok?;
        assert rs[i] == p[i];
        assert forall j :: 0 <= j < i ==> rs[j] == p[j];
      } else if rs[|rs| - 1].Err? {
        var i := |rs| - 1;
        assert Collect(rs) == Err(rs[i].error);
        assert forall j :: 0 <= j < i ==> rs[j] == p[j];
        assert rs[i] == Err(Collect(rs).error);
      }
    }
  }

  /** `process_data` on every file, in submission order. */
  function ProcessAll(parseFloat: string -> Option<real>, profession: string, files: seq<CsvFile>): seq<Result<FileStats>> {
    seq(|files|, i requires 0 <= i < |files| => ProcessData(parseFloat, profession, files[i]))
  }

  function SalaryDicts(rs: seq<FileStats>): seq<Dict<int, int>> {
    seq(|rs|, i requires 0 <= i < |rs| => rs[i].salaryByYear)
  }

  function CountDicts(rs: seq<FileStats>): seq<Dict<int, int>> {
    seq(|rs|, i requires 0 <= i < |rs| => rs[i].countByYear)
  }

  function ProfessionSalaryDicts(rs: seq<FileStats>): seq<Dict<int, int>> {
    seq(|rs|, i requires 0 <= i < |rs| => rs[i].professionSalaryByYear)
  }

  function ProfessionCountDicts(rs: seq<FileStats>): seq<Dict<int, int>> {
    seq(|rs|, i requires 0 <= i < |rs| => rs[i].professionCountByYear)
  }

  /** The four merged dicts. */
  function MergeStats(rs: seq<FileStats>): FileStats {
    FileStats(MergeDicts(SalaryDicts(rs)), MergeDicts(CountDicts(rs)),
              MergeDicts(ProfessionSalaryDicts(rs)), MergeDicts(ProfessionCountDicts(rs)))
  }

  /** The whole run over a directory's files: process each, then merge. */
  function ProcessCorpus(parseFloat: string -> Option<real>, profession: string, files: seq<CsvFile>): Result<FileStats> {
    var rs :- Collect(ProcessAll(parseFloat, profession, files));
    Ok(MergeStats(rs))
  }

  /** Dicts with the same keys, result by result, merge to the same keys. */
  lemma {:induction false} AllKeysOfAligned(ds: seq<Dict<int, int>>, es: seq<Dict<int, int>>)
    requires |ds| == |es| && forall i :: 0 <= i < |ds| ==> Keys(ds[i]) == Keys(es[i])
    ensures AllKeys(ds) == AllKeys(es)
    decreases |ds|
  {
    if |ds| > 0 {
      AllKeysOfAligned(ds[..|ds| - 1], es[..|es| - 1]);
    }
  }

  /** If every file's four dicts share one key sequence, so do the merged
      dicts, which is what lets the report read them side by side. */
  lemma MergeStatsAligned(rs: seq<FileStats>)
    requires forall i :: 0 <= i < |rs| ==> Aligned(rs[i])
    ensures Aligned(MergeStats(rs))
  {
    var s := SalaryDicts(rs);
    MergedKeysAgree(CountDicts(rs), s);
    MergedKeysAgree(ProfessionSalaryDicts(rs), s);
    MergedKeysAgree(ProfessionCountDicts(rs), s);
  }

  /** Results with the same key sequences, file by file, merge to the same keys. */
  lemma MergedKeysAgree(ds: seq<Dict<int, int>>, es: seq<Dict<int, int>>)
    requires |ds| == |es| && forall i :: 0 <= i < |ds| ==> Keys(ds[i]) == Keys(es[i])
    ensures Keys(MergeDicts(ds)) == Keys(MergeDicts(es))
  {
    MergeDictsKeys(ds);
    MergeDictsKeys(es);
    AllKeysOfAligned(ds, es);
  }

  /** Merging one dict reproduces it. */
  lemma MergeOne(d: Dict<int, int>)
    requires Distinct(Keys(d))
    ensures MergeDicts([d]) == d
  {
    assert [d][..0] == [];
    FromPairsOfDistinct(d);
  }

  /** Two results whose years are all different merge to their union, the
      first result's years first. */
  lemma MergeDisjoint(a: Dict<int, int>, b: Dict<int, int>)
    requires Distinct(Keys(a)) && Distinct(Keys(a + b))
    ensures MergeDicts([a, b]) == a + b
  {
    assert [a, b][..1] == [a];
    MergeOne(a);
    UpdateFresh(a, b);
  }

  /** A year the later result repeats keeps its position from the earlier
      result and takes the later value. */
  lemma MergeSharedKey(d: Dict<int, int>, k: int, v: int)
    requires Distinct(Keys(d)) && k in Keys(d)
    ensures MergeDicts([d, [(k, v)]]) == d[FirstIndex(Keys(d), k) := (k, v)]
  {
    assert [d, [(k, v)]][..1] == [d];
    MergeOne(d);
    assert [(k, v)][..0] == [];
    assert Update(d, [(k, v)]) == Set(d, k, v);
  }
}

=== FILE: text.dfy ===
/** The field-cleaning rule applied to every kept CSV value:
      " ".join(re.sub("<.*?>", "", value).replace("\n", "; ").split())
    written as three explicit scans (tag removal, newline replacement,
    whitespace split) and a join. */
module Text {
  import opened Results

  /** The characters Python's `str.split()` and `str.strip()` treat as whitespace. */
  predicate IsSpace(c: char) {
    var n := c as int;
    || n == 0x20 || 0x09 <= n <= 0x0D || 0x1C <= n <= 0x1F || n == 0x85 || n == 0xA0
    || n == 0x1680 || 0x2000 <= n <= 0x200A || n == 0x2028 || n == 0x2029
    || n == 0x202F || n == 0x205F || n == 0x3000
  }

  /** `s[:n]`: at most the first `n` characters. */
  function Head(s: string, n: nat): (r: string)
    ensures |r| == if |s| < n then |s| else n
    ensures r == s[..|r|]
  {
    if |s| < n then s else s[..n]
  }

  // ---------------------------------------------------------------------------
  // re.sub("<.*?>", "", s): `.` does not match a newline and `*?` is lazy, so a
  // `<` opens a tag exactly when a `>` follows it on the same line, and the tag
  // ends at the first such `>`.

  /** No `>` in `t` before its first newline. */
  ghost predicate NoCloseOnLine(t: string) {
    forall j :: 0 <= j < |t| && t[j] == '>' ==> '\n' in t[..j]
  }

  /** `<.*?>` matches nowhere in `t`. */
  ghost predicate NoTag(t: string) {
    forall i :: 0 <= i < |t| && t[i] == '<' ==> NoCloseOnLine(t[i + 1..])
  }

  /** For the text `t` that follows a `<`: the offset of the `>` that closes the tag, if any. */
  function TagEnd(t: string): (r: Option<nat>)
    ensures r.Some? ==> r.value < |t| && t[r.value] == '>'
    ensures r.Some? ==> '>' !in t[..r.value] && '\n' !in t[..r.value]
    ensures r.None? <==> NoCloseOnLine(t)
  {
    if |t| == 0 then None
    else if t[0] == '>' then Some(0)
    else if t[0] == '\n' then
      assert forall j :: 0 < j < |t| ==> t[..j][0] == '\n';
      None
    else
      var r := TagEnd(t[1..]);
      assert forall j :: 0 < j <= |t| ==> t[..j] == [t[0]] + t[1..][..j - 1];
      match r
      case None => None
      case Some(k) => Some(k + 1)
  }

  /** `re.sub("<.*?>", "", s)`, scanning left to right as the regex engine does. */
  function StripTags(s: string): string
    decreases |s|
  {
    if |s| == 0 then ""
    else if s[0] == '<' && TagEnd(s[1..]).Some? then StripTags(s[TagEnd(s[1..]).value + 2..])
    else [s[0]] + StripTags(s[1..])
  }

  /** Tag removal never brings a `>` onto the first line: removed tags contain no newline. */
  lemma {:induction false} StripTagsKeepsNoClose(s: string)
    requires NoCloseOnLine(s)
    ensures NoCloseOnLine(StripTags(s))
    decreases |s|
  {
    if |s| > 0 {
      if s[0] == '<' && TagEnd(s[1..]).Some? {
        assert false;
      } else {
        var r := StripTags(s[1..]);
        assert StripTags(s) == [s[0]] + r;
        if s[0] != '\n' {
          assert NoCloseOnLine(s[1..]) by {
            forall j | 0 <= j < |s[1..]| && s[1..][j] == '>'
              ensures '\n' in s[1..][..j]
            {
              assert s[j + 1] == '>';
              assert s[..j + 1] == [s[0]] + s[1..][..j];
            }
          }
          StripTagsKeepsNoClose(s[1..]);
          forall j | 0 <= j < |[s[0]] + r| && ([s[0]] + r)[j] == '>'
            ensures '\n' in ([s[0]] + r)[..j]
          {
            assert j > 0;
            assert ([s[0]] + r)[..j] == [s[0]] + r[..j - 1];
          }
        } else {
          forall j | 0 <= j < |[s[0]] + r| && ([s[0]] + r)[j] == '>'
            ensures '\n' in ([s[0]] + r)[..j]
          {
            assert ([s[0]] + r)[..j][0] == '\n';
          }
        }
      }
    }
  }

  /** After tag removal no tag is left. */
  lemma {:induction false} StripTagsLeavesNoTag(s: string)
    ensures NoTag(StripTags(s))
    decreases |s|
  {
    if |s| > 0 {
      if s[0] == '<' && TagEnd(s[1..]).Some? {
        StripTagsLeavesNoTag(s[TagEnd(s[1..]).value + 2..]);
      } else {
        StripTagsLeavesNoTag(s[1..]);
        if s[0] == '<' {
          StripTagsKeepsNoClose(s[1..]);
        }
        NoTagCons(s[0], StripTags(s[1..]));
        assert StripTags(s) == [s[0]] + StripTags(s[1..]);
      }
    }
  }

  /** A character in front of tag-free text makes no tag, unless it is a `<`
      with a `>` on the rest of the line. */
  lemma NoTagCons(c: char, r: string)
    requires NoTag(r) && (c == '<' ==> NoCloseOnLine(r))
    ensures NoTag([c] + r)
  {
    var t := [c] + r;
    forall i | 0 <= i < |t| && t[i] == '<'
      ensures NoCloseOnLine(t[i + 1..])
    {
      if i > 0 {
        assert t[i + 1..] == r[i..];
        assert r[i - 1] == '<';
      } else {
        assert t[1..] == r;
      }
    }
  }

  /** Text with no tag in it passes tag removal unchanged. */
  lemma {:induction false} StripTagsOfTagFree(s: string)
    requires NoTag(s)
    ensures StripTags(s) == s
    decreases |s|
  {
    if |s| > 0 {
      assert s[0] == '<' ==> NoCloseOnLine(s[1..]);
      assert NoTag(s[1..]) by {
        forall i | 0 <= i < |s[1..]| && s[1..][i] == '<'
          ensures NoCloseOnLine(s[1..][i + 1..])
        {
          assert s[i + 1] == '<';
          assert s[1..][i + 1..] == s[i + 2..];
        }
      }
      StripTagsOfTagFree(s[1..]);
      assert s == [s[0]] + s[1..];
    }
  }

  // ---------------------------------------------------------------------------
  // .replace("\n", "; ")

  function ReplaceNewlines(s: string): (r: string)
    ensures '\n' !in r
    ensures '\n' !in s ==> r == s
  {
    if |s| == 0 then ""
    else
      var rest := ReplaceNewlines(s[1..]);
      assert '\n' !in s ==> s == [s[0]] + s[1..];
      (if s[0] == '\n' then "; " else [s[0]]) + rest
  }

  // ---------------------------------------------------------------------------
  // " ".join(s.split())

  /** A non-empty run of non-whitespace characters. */
  predicate IsWord(w: string) {
    |w| > 0 && forall i :: 0 <= i < |w| ==> !IsSpace(w[i])
  }

  /** The words of `s` as `str.split()` finds them; `cur` is the word begun so far. */
  function SplitFrom(s: string, cur: string): (ws: seq<string>)
    requires forall i :: 0 <= i < |cur| ==> !IsSpace(cur[i])
    ensures forall i :: 0 <= i < |ws| ==> IsWord(ws[i])
    decreases |s|
  {
    if |s| == 0 then
      (if cur == "" then [] else [cur])
    else if IsSpace(s[0]) then
      (if cur == "" then SplitFrom(s[1..], "") else [cur] + SplitFrom(s[1..], ""))
    else
      SplitFrom(s[1..], cur + [s[0]])
  }

  /** `s.split()` */
  function Split(s: string): (ws: seq<string>)
    ensures forall i :: 0 <= i < |ws| ==> IsWord(ws[i])
  {
    SplitFrom(s, "")
  }

  /** `" ".join(ws)` */
  function Join(ws: seq<string>): string {
    if |ws| == 0 then ""
    else if |ws| == 1 then ws[0]
    else ws[0] + " " + Join(ws[1..])
  }

  /** Whitespace-normalised text: its only whitespace is single spaces between non-space characters. */
  predicate Normalized(s: string) {
    forall i :: 0 <= i < |s| && IsSpace(s[i]) ==> s[i] == ' ' && 0 < i < |s| - 1 && !IsSpace(s[i + 1])
  }

  /** Joining words with single spaces gives normalised text that begins and ends with a word character. */
  lemma {:induction false} JoinNormalized(ws: seq<string>)
    requires forall i :: 0 <= i < |ws| ==> IsWord(ws[i])
    ensures Normalized(Join(ws))
    ensures |ws| > 0 ==> |Join(ws)| > 0 && !IsSpace(Join(ws)[0])
  {
    if |ws| > 1 {
      JoinNormalized(ws[1..]);
      var a, b := ws[0], Join(ws[1..]);
      var t := a + " " + b;
      assert Join(ws) == t;
      forall i | 0 <= i < |t|
        ensures IsSpace(t[i]) ==> t[i] == ' ' && 0 < i < |t| - 1 && !IsSpace(t[i + 1])
      {
        if i < |a| {
          assert t[i] == a[i];
        } else if i > |a| {
          assert t[i] == b[i - |a| - 1];
          if i < |t| - 1 {
            assert t[i + 1] == b[i - |a|];
          }
        } else {
          assert t[i + 1] == b[0];
        }
      }
    }
  }

  lemma JoinCons(w: string, ws: seq<string>)
    requires |ws| > 0
    ensures Join([w] + ws) == w + " " + Join(ws)
  {
    assert ([w] + ws)[1..] == ws;
  }

  lemma {:induction false} SplitFromBlank(s: string)
    requires forall i :: 0 <= i < |s| ==> IsSpace(s[i])
    ensures SplitFrom(s, "") == []
    decreases |s|
  {
    if |s| > 0 {
      SplitFromBlank(s[1..]);
    }
  }

  /** Splitting and re-joining normalised text gives it back; `cur` is the word begun so far. */
  lemma {:induction false} SplitFromJoin(s: string, cur: string)
    requires forall i :: 0 <= i < |cur| ==> !IsSpace(cur[i])
    requires Normalized(cur + s)
    ensures Join(SplitFrom(s, cur)) == cur + s
    decreases |s|
  {
    var t := cur + s;
    if |s| == 0 {
      assert t == cur;
    } else if IsSpace(s[0]) {
      assert t[|cur|] == s[0];
      NormalizedAfterSpace(t, |cur|);
      assert t[|cur| + 1..] == s[1..];
      assert "" + s[1..] == s[1..];
      SplitFromJoin(s[1..], "");
      SplitFromAfterSpace(s, cur);
    } else {
      var cur' := cur + [s[0]];
      WordGrows(cur, s[0]);
      assert cur' + s[1..] == t;
      SplitFromJoin(s[1..], cur');
    }
  }

  /** A non-space character extends a run of non-space characters. */
  lemma WordGrows(cur: string, c: char)
    requires forall i :: 0 <= i < |cur| ==> !IsSpace(cur[i])
    requires !IsSpace(c)
    ensures forall i :: 0 <= i < |cur + [c]| ==> !IsSpace((cur + [c])[i])
  {
  }

  /** In normalised text, a whitespace character is a single space between two
      other characters, and what follows it is normalised too. */
  lemma NormalizedAfterSpace(t: string, k: nat)
    requires Normalized(t) && k < |t| && IsSpace(t[k])
    ensures t[k] == ' ' && 0 < k && k + 1 < |t| && !IsSpace(t[k + 1]) && Normalized(t[k + 1..])
  {
    var u := t[k + 1..];
    forall i | 0 <= i < |u|
      ensures IsSpace(u[i]) ==> u[i] == ' ' && 0 < i < |u| - 1 && !IsSpace(u[i + 1])
    {
      assert u[i] == t[k + 1 + i];
      if i < |u| - 1 {
        assert u[i + 1] == t[k + 2 + i];
      }
    }
  }

  /** The step of `SplitFromJoin` at the space that ends the current word. */
  lemma SplitFromAfterSpace(s: string, cur: string)
    requires forall i :: 0 <= i < |cur| ==> !IsSpace(cur[i])
    requires 0 < |cur| && 2 <= |s| && s[0] == ' '
    requires Join(SplitFrom(s[1..], "")) == s[1..]
    ensures Join(SplitFrom(s, cur)) == cur + s
  {
    var ws := SplitFrom(s[1..], "");
    assert |Join(ws)| > 0;
    calc {
      Join(SplitFrom(s, cur));
    == { SplitFromAtSpace(s, cur); }
      Join([cur] + ws);
    == { JoinCons(cur, ws); }
      cur + " " + s[1..];
    == { SpaceThenRest(cur, s); }
      cur + s;
    }
  }

  /** A whitespace character ends the current word. */
  lemma SplitFromAtSpace(s: string, cur: string)
    requires forall i :: 0 <= i < |cur| ==> !IsSpace(cur[i])
    requires 0 < |cur| && 0 < |s| && IsSpace(s[0])
    ensures SplitFrom(s, cur) == [cur] + SplitFrom(s[1..], "")
  {
  }

  lemma SpaceThenRest(cur: string, s: string)
    requires 0 < |s| && s[0] == ' '
    ensures cur + " " + s[1..] == cur + s
  {
    assert s == " " + s[1..];
  }

  /** The whole cleaning rule for one field. */
  function CleanField(s: string): string {
    Join(Split(ReplaceNewlines(StripTags(s))))
  }

  /** Every cleaned field is whitespace-normalised: no newline, no leading or
      trailing whitespace, no two adjacent spaces, and no other whitespace character. */
  lemma CleanFieldNormalized(s: string)
    ensures Normalized(CleanField(s))
    ensures '\n' !in CleanField(s)
    ensures var r := CleanField(s); |r| > 0 ==> !IsSpace(r[0]) && !IsSpace(r[|r| - 1])
    ensures var r := CleanField(s); forall i :: 0 <= i < |r| - 1 ==> !(r[i] == ' ' && r[i + 1] == ' ')
  {
    JoinNormalized(Split(ReplaceNewlines(StripTags(s))));
    var r := CleanField(s);
    assert forall i :: 0 <= i < |r| ==> r[i] != '\n' by {
      forall i | 0 <= i < |r|
        ensures r[i] != '\n'
      {
        assert IsSpace('\n');
      }
    }
  }

  /** A field that is already tag-free and normalised comes out unchanged. */
  lemma CleanFieldOfClean(s: string)
    requires NoTag(s) && Normalized(s)
    ensures CleanField(s) == s
  {
    StripTagsOfTagFree(s);
    assert '\n' !in s by {
      assert IsSpace('\n');
    }
    assert "" + s == s;
    SplitFromJoin(s, "");
  }

  /** A field of whitespace other than newlines passes the raw emptiness check but cleans to "". */
  lemma CleanFieldOfBlank(s: string)
    requires forall i :: 0 <= i < |s| ==> IsSpace(s[i]) && s[i] != '\n'
    ensures CleanField(s) == ""
  {
    assert NoTag(s);
    StripTagsOfTagFree(s);
    assert '\n' !in s;
    SplitFromBlank(s);
  }

  // ---------------------------------------------------------------------------
  // How the rule treats tags and newlines, for any words around them.

  /** Text with no `<` in front of the rest is kept as it is by tag removal. */
  lemma {:induction false} StripTagsAfterPlain(a: string, b: string)
    requires '<' !in a
    ensures StripTags(a + b) == a + StripTags(b)
    decreases |a|
  {
    if |a| > 0 {
      var t := a + b;
      assert t[0] == a[0] && t[1..] == a[1..] + b;
      StripTagsAfterPlain(a[1..], b);
      assert [a[0]] + a[1..] == a;
    } else {
      assert a + b == b;
    }
  }

  /** A `>` with no `>` or newline before it closes the tag right there. */
  lemma TagEndAt(a: string, b: string)
    requires '>' !in a && '\n' !in a
    ensures TagEnd(a + ">" + b) == Some(|a|)
  {
    var t := a + ">" + b;
    assert t[|a|] == '>' && t[..|a|] == a;
  }

  /** Newline replacement works character by character. */
  lemma {:induction false} ReplaceNewlinesAppend(a: string, b: string)
    ensures ReplaceNewlines(a + b) == ReplaceNewlines(a) + ReplaceNewlines(b)
    decreases |a|
  {
    if |a| == 0 {
      assert a + b == b;
    } else {
      var h := if a[0] == '\n' then "; " else [a[0]];
      calc {
        ReplaceNewlines(a + b);
      == { assert (a + b)[0] == a[0] && (a + b)[1..] == a[1..] + b; }
        h + ReplaceNewlines(a[1..] + b);
      == { ReplaceNewlinesAppend(a[1..], b); }
        h + (ReplaceNewlines(a[1..]) + ReplaceNewlines(b));
      ==
        (h + ReplaceNewlines(a[1..])) + ReplaceNewlines(b);
      }
    }
  }

  /** A word wrapped in an opening and a closing tag cleans to the word: `<b>x</b>` gives `x`. */
  lemma CleanFieldOfTagged(open: string, w: string, close: string)
    requires '>' !in open && '\n' !in open && '>' !in close && '\n' !in close
    requires IsWord(w) && '<' !in w
    ensures CleanField("<" + open + ">" + w + "<" + close + ">") == w
  {
    StripTagged(open, w, close);
    CleanWordAfterStrip("<" + open + ">" + w + "<" + close + ">", w);
  }

  /** Tag removal takes out both tags and keeps the word between them. */
  lemma StripTagged(open: string, w: string, close: string)
    requires '>' !in open && '\n' !in open && '>' !in close && '\n' !in close
    requires '<' !in w
    ensures StripTags("<" + open + ">" + w + "<" + close + ">") == w
  {
    var rest := w + "<" + close + ">";
    calc {
      StripTags("<" + open + ">" + w + "<" + close + ">");
    == { TagThenRest(open, w, close); }
      StripTags("<" + open + ">" + rest);
    == { StripLeadingTag(open, rest); }
      StripTags(rest);
    == { StripTagsBeforeTag(w, close); }
      w;
    }
  }

  lemma TagThenRest(open: string, w: string, close: string)
    ensures "<" + open + ">" + w + "<" + close + ">" == "<" + open + ">" + (w + "<" + close + ">")
  {
  }

  /** A `<`-free word followed by one tag keeps only the word. */
  lemma StripTagsBeforeTag(w: string, close: string)
    requires '<' !in w && '>' !in close && '\n' !in close
    ensures StripTags(w + "<" + close + ">") == w
  {
    var tail := "<" + close + ">";
    calc {
      StripTags(w + "<" + close + ">");
    == { assert w + "<" + close + ">" == w + tail; }
      StripTags(w + tail);
    == { StripTagsAfterPlain(w, tail); }
      w + StripTags(tail);
    == { StripLeadingTag(close, ""); assert tail + "" == tail; }
      w + StripTags("");
    ==
      w;
    }
  }

  /** A leading tag with no `>` or newline inside is removed. */
  lemma StripLeadingTag(name: string, rest: string)
    requires '>' !in name && '\n' !in name
    ensures StripTags("<" + name + ">" + rest) == StripTags(rest)
  {
    var s := "<" + name + ">" + rest;
    assert s[1..] == name + ">" + rest;
    TagEndAt(name, rest);
    assert s[|name| + 2..] == rest;
  }

  /** Once tag removal has left a single word, the rest of the rule keeps it. */
  lemma CleanWordAfterStrip(s: string, w: string)
    requires IsWord(w) && StripTags(s) == w
    ensures CleanField(s) == w
  {
    assert IsSpace('\n');
    SplitOfWord(w);
  }

  /** Text with no `<` at all is kept as it is by tag removal. */
  lemma StripTagsOfPlain(a: string)
    requires '<' !in a
    ensures StripTags(a) == a
  {
    StripTagsAfterPlain(a, "");
    assert a + "" == a;
  }

  lemma ReplaceNewlinesOfNewline()
    ensures ReplaceNewlines("\n") == "; "
  {
  }

  /** When tag removal and newline replacement leave two words and one space,
      the field cleans to exactly that. */
  lemma CleansToTwoWords(s: string, x: string, y: string)
    requires IsWord(x) && IsWord(y)
    requires ReplaceNewlines(StripTags(s)) == x + " " + y
    ensures CleanField(s) == x + " " + y
  {
    SplitTwoWords(x, y);
    assert Join([x, y]) == x + " " + Join([y]);
  }

  /** The one newline between two newline-free texts becomes "; ". */
  lemma ReplaceNewlineBetween(a: string, b: string)
    requires '\n' !in a && '\n' !in b
    ensures ReplaceNewlines(a + "\n" + b) == a + "; " + b
  {
    ReplaceNewlinesAppend(a + "\n", b);
    ReplaceNewlinesAppend(a, "\n");
    ReplaceNewlinesOfNewline();
  }

  /** A word with a `;` after it is still a word. */
  lemma WordThenSemicolon(w: string)
    requires IsWord(w)
    ensures IsWord(w + ";") && w + "; " == (w + ";") + " "
  {
    var x := w + ";";
    forall i | 0 <= i < |x|
      ensures !IsSpace(x[i])
    {
      if i < |w| {
        assert x[i] == w[i];
      }
    }
  }

  /** A newline between two words becomes "; ": `a\nb` gives `a; b`. */
  lemma CleanFieldOfTwoLines(a: string, b: string)
    requires IsWord(a) && IsWord(b) && '<' !in a && '<' !in b
    ensures CleanField(a + "\n" + b) == a + "; " + b
  {
    var s := a + "\n" + b;
    assert '<' !in s;
    StripTagsOfPlain(s);
    assert IsSpace('\n');
    ReplaceNewlineBetween(a, b);
    WordThenSemicolon(a);
    CleansToTwoWords(s, a + ";", b);
  }

  /** A lone newline cleans to ";". */
  lemma CleanFieldLoneNewline()
    ensures CleanField("\n") == ";"
  {
    assert NoTag("\n");
    StripTagsOfTagFree("\n");
    assert ReplaceNewlines("\n") == "; ";
    SplitWordSpace();
  }

  lemma SplitWordSpace()
    ensures Split("; ") == [";"]
  {
    assert "" + [';'] == ";";
    assert "; "[1..] == " ";
    assert SplitFrom(" ", ";") == [";"] + SplitFrom("", "");
  }

  /** Splitting two words joined by one space gives the two words back. */
  lemma SplitTwoWords(a: string, b: string)
    requires IsWord(a) && IsWord(b)
    ensures Split(a + " " + b) == [a, b]
  {
    SplitWordThenRest(a, " " + b, "");
    assert a + " " + b == a + (" " + b);
    assert (" " + b)[1..] == b;
    assert "" + a == a;
    SplitOfWord(b);
  }

  lemma SplitOfWord(w: string)
    requires IsWord(w)
    ensures Split(w) == [w]
  {
    assert w + "" == w;
    SplitWordThenRest(w, "", "");
    assert "" + w == w;
  }

  /** A word followed by text that is empty or starts with whitespace is split off whole. */
  lemma {:induction false} SplitWordThenRest(w: string, rest: string, cur: string)
    requires IsWord(w)
    requires forall i :: 0 <= i < |cur| ==> !IsSpace(cur[i])
    requires |rest| == 0 || IsSpace(rest[0])
    ensures SplitFrom(w + rest, cur) == [cur + w] + (if |rest| == 0 then [] else SplitFrom(rest[1..], ""))
    decreases |w|
  {
    var t := w + rest;
    assert t[0] == w[0] && t[1..] == w[1..] + rest;
    if |w| == 1 {
      assert w[1..] + rest == rest;
      assert cur + [w[0]] == cur + w;
    } else {
      assert IsWord(w[1..]);
      SplitWordThenRest(w[1..], rest, cur + [w[0]]);
      assert (cur + [w[0]]) + w[1..] == cur + w;
    }
  }

  /** A tag broken by a newline is not a tag for the pattern, and newline
      replacement then turns it into one: `<p\n>` cleans to `<p; >`, which
      still holds a `<…>`. */
  lemma CleanFieldOfBrokenTag(w: string)
    requires IsWord(w) && '<' !in w && '>' !in w
    ensures CleanField("<" + w + "\n>") == "<" + w + "; >"
    ensures !NoTag("<" + w + "; >")
  {
    var s, v := "<" + w + "\n>", "<" + w;
    TagOpenIsWord(w);
    WordThenSemicolon(v);
    calc {
      ReplaceNewlines(StripTags(s));
    == { BrokenTagSurvives(w); }
      ReplaceNewlines(s);
    == { assert s == v + "\n" + ">"; }
      ReplaceNewlines(v + "\n" + ">");
    == { ReplaceNewlineBetween(v, ">"); }
      v + "; " + ">";
    ==
      (v + ";") + " " + ">";
    }
    CleansToTwoWords(s, v + ";", ">");
    assert (v + ";") + " " + ">" == "<" + w + "; >";
    BrokenTagIsTag(w);
  }

  /** A `<` in front of a word still makes a word. */
  lemma TagOpenIsWord(w: string)
    requires IsWord(w)
    ensures IsWord("<" + w)
  {
    var v := "<" + w;
    forall i | 0 <= i < |v|
      ensures !IsSpace(v[i])
    {
      if i > 0 {
        assert v[i] == w[i - 1];
      }
    }
  }

  /** Tag removal keeps `<w\n>` whole: no `>` follows the `<` on its line. */
  lemma BrokenTagSurvives(w: string)
    requires IsWord(w) && '<' !in w && '>' !in w
    ensures StripTags("<" + w + "\n>") == "<" + w + "\n>"
  {
    var s := "<" + w + "\n>";
    var t := w + "\n>";
    assert s[1..] == t && s == "<" + t;
    assert IsSpace('\n');
    assert NoCloseOnLine(t) by {
      forall j | 0 <= j < |t| && t[j] == '>'
        ensures '\n' in t[..j]
      {
        assert j == |w| + 1;
        assert t[..j][|w|] == '\n';
      }
    }
    assert '<' !in t;
    StripTagsAfterPlain(t, "");
    assert t + "" == t;
    assert StripTags(s) == "<" + StripTags(t);
  }

  /** `<w; >` holds a tag: its `>` is on the same line as its `<`. */
  lemma BrokenTagIsTag(w: string)
    requires IsWord(w) && '>' !in w
    ensures !NoTag("<" + w + "; >")
  {
    var t := "<" + w + "; >";
    var u := t[1..];
    assert u == w + "; >";
    assert IsSpace('\n');
    assert u[|w| + 2] == '>';
    assert u[..|w| + 2] == w + "; ";
    assert t[0] == '<' && !NoCloseOnLine(u);
  }
}

=== FILE: year_salary.dfy ===
/** Grouping vacancies by year: one bucket per year holding the sum of the
    converted salaries and the number of vacancies, in the order the years
    first appear. */
module YearSalaries {
  import opened Results
  import opened Seqs
  import opened Salaries
  import opened DataSet

  /** `YearSalary`: a parameter value (here always a year), the running sum of
      converted salaries and the vacancy count. */
  datatype YearSalary = YearSalary(param: string, salary: real, count: nat)

  /** `YearSalary(param, salary)`: a bucket holding one converted salary. */
  function NewYearSalary(param: string, s: Salary): (r: Result<YearSalary>)
    ensures r.Ok? <==> s.currency in CurrencyToRub
    ensures r.Ok? ==> r.value.param == param && r.value.count == 1 && Ok(r.value.salary) == ConvertToRubles(s)
    ensures r.Err? ==> r.error == KeyError(s.currency)
  {
    var rub :- ConvertToRubles(s);
    Ok(YearSalary(param, rub, 1))
  }

  /** `add_salary`: one more vacancy, and its converted salary added to the sum. */
  function AddSalary(b: YearSalary, s: Salary): (r: Result<YearSalary>)
    ensures r.Ok? <==> s.currency in CurrencyToRub
    ensures r.Ok? ==> && r.value.param == b.param && r.value.count == b.count + 1
                      && r.value.salary == b.salary + ConvertToRubles(s).value
    ensures r.Err? ==> r.error == KeyError(s.currency)
  {
    var rub :- ConvertToRubles(s);
    Ok(YearSalary(b.param, b.salary + rub, b.count + 1))
  }

  /** The buckets the source documents. */
  lemma YearSalaryExamples()
    ensures NewYearSalary("year", Salary(1000.0, 2000.0, "USD")) == Ok(YearSalary("year", 90990.0, 1))
    ensures var b := NewYearSalary("city", Salary(100.0, 200.0, "RUR")).value;
      AddSalary(b, Salary(200.0, 300.0, "RUR")) == Ok(YearSalary("city", 400.0, 2))
  {
    ConvertExamples();
    assert ConvertToRubles(Salary(200.0, 300.0, "RUR")) == Ok(250.0);
  }

  function Years(vs: seq<Vacancy>): seq<string> {
    seq(|vs|, i requires 0 <= i < |vs| => vs[i].year)
  }

  function Params(bs: seq<YearSalary>): seq<string> {
    seq(|bs|, i requires 0 <= i < |bs| => bs[i].param)
  }

  /** Every vacancy's currency is in the conversion table. */
  predicate AllConvertible(vs: seq<Vacancy>) {
    forall i :: 0 <= i < |vs| ==> vs[i].salary.currency in CurrencyToRub
  }

  /** How many vacancies were published in `year`. */
  function CountYear(vs: seq<Vacancy>, year: string): nat
    decreases |vs|
  {
    if |vs| == 0 then 0
    else CountYear(vs[..|vs| - 1], year) + (if vs[|vs| - 1].year == year then 1 else 0)
  }

  /** The sum of the converted salaries of the vacancies published in `year`. */
  function SumYear(vs: seq<Vacancy>, year: string): real
    requires AllConvertible(vs)
    decreases |vs|
  {
    if |vs| == 0 then 0.0
    else
      var v := vs[|vs| - 1];
      SumYear(vs[..|vs| - 1], year) + (if v.year == year then ConvertToRubles(v.salary).value else 0.0)
  }

  /** The total number of vacancies the buckets account for. */
  function TotalCount(bs: seq<YearSalary>): nat
    decreases |bs|
  {
    if |bs| == 0 then 0 else TotalCount(bs[..|bs| - 1]) + bs[|bs| - 1].count
  }

  /** One loop step: the year's bucket grows if it exists, otherwise a new
      bucket goes last. */
  function Accumulate(acc: seq<YearSalary>, v: Vacancy): Result<seq<YearSalary>> {
    if v.year in Params(acc) then
      var i := FirstIndex(Params(acc), v.year);
      var b :- AddSalary(acc[i], v.salary);
      Ok(acc[i := b])
    else
      var b :- NewYearSalary(v.year, v.salary);
      Ok(acc + [b])
  }

  /** `convert_to_param_salary`: the buckets of the dict keyed by year, in
      insertion order. */
  function ConvertToParamSalary(vs: seq<Vacancy>): Result<seq<YearSalary>>
    decreases |vs|
  {
    if |vs| == 0 then Ok([])
    else
      var acc :- ConvertToParamSalary(vs[..|vs| - 1]);
      Accumulate(acc, vs[|vs| - 1])
  }

  /** `bs` are exactly the buckets of `vs`: one per year, in first-appearance
      order, each holding that year's count and salary sum. */
  predicate Summarizes(bs: seq<YearSalary>, vs: seq<Vacancy>)
    requires AllConvertible(vs)
  {
    && Params(bs) == Dedup(Years(vs))
    && (forall i :: 0 <= i < |bs| ==> bs[i].count == CountYear(vs, bs[i].param))
    && (forall i :: 0 <= i < |bs| ==> bs[i].salary == SumYear(vs, bs[i].param))
    && TotalCount(bs) == |vs|
  }

  /** Grouping succeeds exactly when every currency converts; the buckets then
      summarize the input, so the years are distinct and in first-appearance
      order, every count is at least one and the counts add up to the input length. */
  lemma {:induction false} ConvertToParamSalarySpec(vs: seq<Vacancy>)
    ensures ConvertToParamSalary(vs).Ok? <==> AllConvertible(vs)
    ensures ConvertToParamSalary(vs).Err? ==>
      ConvertToParamSalary(vs).error.KeyError? && ConvertToParamSalary(vs).error.key !in CurrencyToRub
    ensures ConvertToParamSalary(vs).Ok? ==>
      var bs := ConvertToParamSalary(vs).value;
      && Summarizes(bs, vs)
      && FirstAppearanceOrder(Params(bs), Years(vs))
      && (forall i :: 0 <= i < |bs| ==> bs[i].count >= 1)
    decreases |vs|
  {
    if |vs| > 0 {
      var p, v := vs[..|vs| - 1], vs[|vs| - 1];
      ConvertToParamSalarySpec(p);
      SplitLast(vs);
      if ConvertToParamSalary(p).Ok? {
        AccumulateStep(ConvertToParamSalary(p).value, p, v);
      } else {
        assert !AllConvertible(vs) by {
          assert forall i :: 0 <= i < |p| ==> p[i] == vs[i];
        }
      }
    }
    if ConvertToParamSalary(vs).Ok? {
      DedupFirstAppearance(Years(vs));
      SummaryCountsPositive(ConvertToParamSalary(vs).value, vs);
    }
  }

  /** Every bucket of a summary counts at least one vacancy. */
  lemma SummaryCountsPositive(bs: seq<YearSalary>, vs: seq<Vacancy>)
    requires AllConvertible(vs) && Summarizes(bs, vs)
    ensures forall i :: 0 <= i < |bs| ==> bs[i].count >= 1
  {
    forall i | 0 <= i < |bs|
      ensures bs[i].count >= 1
    {
      assert Params(bs)[i] == bs[i].param;
      DedupMembership(Years(vs), bs[i].param);
      CountYearPresent(vs, bs[i].param);
    }
  }

  /** A year that occurs is counted at least once. */
  lemma {:induction false} CountYearPresent(vs: seq<Vacancy>, year: string)
    requires year in Years(vs)
    ensures CountYear(vs, year) >= 1
    decreases |vs|
  {
    var p := vs[..|vs| - 1];
    if vs[|vs| - 1].year != year {
      var k :| 0 <= k < |vs| && Years(vs)[k] == year;
      assert k < |p| && Years(p)[k] == year;
      CountYearPresent(p, year);
    }
  }

  /** A year that does not occur has no count and no salary. */
  lemma {:induction false} YearAbsent(vs: seq<Vacancy>, year: string)
    requires AllConvertible(vs) && year !in Years(vs)
    ensures CountYear(vs, year) == 0 && SumYear(vs, year) == 0.0
    decreases |vs|
  {
    if |vs| > 0 {
      var p := vs[..|vs| - 1];
      assert Years(p) == Years(vs)[..|vs| - 1];
      assert Years(vs)[|vs| - 1] == vs[|vs| - 1].year;
      YearAbsent(p, year);
    }
  }

  lemma {:induction false} TotalCountUpdate(bs: seq<YearSalary>, i: nat, b: YearSalary)
    requires i < |bs|
    ensures TotalCount(bs[i := b]) + bs[i].count == TotalCount(bs) + b.count
    decreases |bs|
  {
    var n := |bs| - 1;
    if i < n {
      TotalCountUpdate(bs[..n], i, b);
      assert bs[i := b][..n] == bs[..n][i := b];
    } else {
      assert bs[i := b][..n] == bs[..n];
    }
  }

  lemma TotalCountAppend(bs: seq<YearSalary>, b: YearSalary)
    ensures TotalCount(bs + [b]) == TotalCount(bs) + b.count
  {
    assert (bs + [b])[..|bs|] == bs;
  }

  /** One step keeps `Summarizes`. */
  lemma AccumulateStep(acc: seq<YearSalary>, p: seq<Vacancy>, v: Vacancy)
    requires AllConvertible(p) && Summarizes(acc, p)
    ensures var r := Accumulate(acc, v);
      && (r.Ok? <==> v.salary.currency in CurrencyToRub)
      && (r.Err? ==> r.error == KeyError(v.salary.currency))
      && (r.Ok? ==> AllConvertible(p + [v]) && Summarizes(r.value, p + [v]))
  {
    var vs := p + [v];
    var r := Accumulate(acc, v);
    if r.Ok? {
      assert AllConvertible(vs) by {
        assert forall i :: 0 <= i < |p| ==> vs[i] == p[i];
      }
      assert Years(vs) == Years(p) + [v.year];
      assert vs[..|vs| - 1] == p;
      assert Years(vs)[..|vs| - 1] == Years(p);
      DedupMembership(Years(p), v.year);
      DedupDistinct(Years(p));
      if v.year in Params(acc) {
        UpdateStep(acc, p, v);
      } else {
        NewStep(acc, p, v);
      }
    }
  }

  lemma UpdateStep(acc: seq<YearSalary>, p: seq<Vacancy>, v: Vacancy)
    requires AllConvertible(p) && Summarizes(acc, p)
    requires v.salary.currency in CurrencyToRub && v.year in Params(acc)
    requires Distinct(Params(acc))
    ensures AllConvertible(p + [v])
    ensures Accumulate(acc, v).Ok? && Summarizes(Accumulate(acc, v).value, p + [v])
  {
    var vs := p + [v];
    assert vs[..|vs| - 1] == p;
    assert AllConvertible(vs) by {
      assert forall i :: 0 <= i < |p| ==> vs[i] == p[i];
    }
    var i := FirstIndex(Params(acc), v.year);
    var b := AddSalary(acc[i], v.salary).value;
    var r := acc[i := b];
    assert Accumulate(acc, v) == Ok(r);
    assert Params(r) == Params(acc);
    assert Years(vs) == Years(p) + [v.year];
    assert Years(vs)[..|vs| - 1] == Years(p);
    DedupMembership(Years(p), v.year);
    assert Dedup(Years(vs)) == Dedup(Years(p));
    forall j | 0 <= j < |r|
      ensures r[j].count == CountYear(vs, r[j].param) && r[j].salary == SumYear(vs, r[j].param)
    {
      if j != i {
        assert Params(acc)[j] != Params(acc)[i];
      }
    }
    TotalCountUpdate(acc, i, b);
  }

  lemma NewStep(acc: seq<YearSalary>, p: seq<Vacancy>, v: Vacancy)
    requires AllConvertible(p) && Summarizes(acc, p)
    requires v.salary.currency in CurrencyToRub && v.year !in Params(acc)
    ensures AllConvertible(p + [v])
    ensures Accumulate(acc, v).Ok? && Summarizes(Accumulate(acc, v).value, p + [v])
  {
    var vs := p + [v];
    assert vs[..|vs| - 1] == p;
    assert AllConvertible(vs) by {
      assert forall i :: 0 <= i < |p| ==> vs[i] == p[i];
    }
    var b := NewYearSalary(v.year, v.salary).value;
    var r := acc + [b];
    assert Accumulate(acc, v) == Ok(r);
    assert Params(r) == Params(acc) + [v.year];
    assert Years(vs) == Years(p) + [v.year];
    assert Years(vs)[..|vs| - 1] == Years(p);
    DedupMembership(Years(p), v.year);
    YearAbsent(p, v.year);
    assert Dedup(Years(vs)) == Dedup(Years(p)) + [v.year];
    forall j | 0 <= j < |r|
      ensures r[j].count == CountYear(vs, r[j].param) && r[j].salary == SumYear(vs, r[j].param)
    {
      if j < |acc| {
        assert r[j] == acc[j];
        assert Params(acc)[j] != v.year;
      }
    }
    TotalCountAppend(acc, b);
  }
}
